=== FILE: README.md ===
# rewrite — a Dafny model of the request rewrite engine

This project models the core of the `rewrite` Go middleware: `rewrite.go`.
It has two halves.

The first half is the rule compiler, `New` and `parseRedirectMatchLine`.
Each configuration line has the form `CODE PATTERN TARGET`. The compiler
trims the line and splits it on single spaces. It checks the code digit by
digit and converts it with `strconv.Atoi`. It compiles the pattern and
refuses a rule whose pattern matches its own target (a redirect loop). Code 0
means an in-place rewrite with no redirect. A pattern starting with `/` is
matched against the path; any other pattern is matched against the full URL.
`New` compiles the lines in order and stops at the first refused one. It
also turns a primary subdomain such as `www` into `www.`.

The second half is the per-request engine, `Engine.rewrite`. When a primary
subdomain is configured, the subdomain canonicaliser runs first:

- a request on the bare root domain is redirected with 301 to the primary
  subdomain;
- a request already on the primary subdomain has its host fields rewritten
  to the root and goes on;
- a root ending in `localhost` is never touched;
- a request without a host is taken for a bare root: unless the domain
  found for the empty host is refused, it is redirected to the primary
  subdomain followed by that domain.

Then the rules are tried in order, and the first rule whose `matchAndReplace`
succeeds decides. It forwards the request when the target equals the
subject. It rewrites the URL in place for a no-redirect rule, answering 421
when the target does not parse. Otherwise it redirects with the rule's code,
through `redirectAbs` for a full-URL rule or `http.Redirect` for a path rule.
When no rule matches, the request is forwarded.

Layout:

- `wrappers.dfy`: `Option` and `Result`.
- `gostrings.dfy`: the parts of Go's `strings` and `unicode` packages the
  engine uses: `TrimSpace`, `Split`, `IndexByte`, `HasPrefix`/`HasSuffix`
  and `TrimPrefix`/`TrimSuffix`.
- `strconv.dfy`: `isDigit` and `strconv.Atoi` on a 64-bit platform.
- `collaborators.dfy`: the library calls the engine makes, as function
  values of a `Library`. These are the regexp engine, the public-suffix
  list, `net.SplitHostPort`, `url.URL.Parse`, `url.URL.String`,
  `url.URL.RequestURI` and the Location that `http.Redirect` computes.
  Nothing is assumed about their answers, so every property below holds
  for any library behaviour.
- `rules.dfy`: rule lines, `parseRedirectMatchLine` as a function and as a
  method with the source's loop, `matchAndReplace`, and `New`.
- `hosts.dfy`: `getScheme`, `getPort`, `getHost` and `getDomain`.
- `http.dfy`: the request and the response writer as classes updated in
  place, and `redirectAbs`, `http.Redirect` and `http.Error` as changes to
  the response.
- `pipeline.dfy`: `Engine.rewrite`. The functions `Canonicalize`,
  `CanonicalStep`, `ApplyRules` and `Process` say what it does. The methods
  `CanonicalizeSubdomain`, `RunRules` and `Rewrite` do it on the request
  and the response writer, and are proved against those functions.
- `rule_properties.dfy` and `pipeline_properties.dfy`: what the compiler
  and the engine promise.
- `scenarios.dfy`: rule lines and hosts from the example servers, stated
  as lemmas about the model.

## Model

| member | source | states |
|---|---|---|
| Strconv.Atoi | rewrite.go:282-287 | `strconv.Atoi`: a value within the 64-bit range, an error on empty input, a non-negative value without a minus sign |
| Strconv.AtoiDigits | rewrite.go:276-287 | on a non-empty all-digit code, the conversion fails exactly when the value exceeds the largest 64-bit int, and otherwise yields the decimal value |
| Strconv.IsDigit | rewrite.go:306-308 | a character is a digit exactly when its code lies among the ten codes from '0' |
| Strconv.DecimalValueZero | rewrite.go:299 | a digit string has value 0 exactly when every digit is '0' |
| GoStrings.Split | rewrite.go:270 | splitting on " " gives one more piece than there are spaces, and no piece contains a space |
| GoStrings.TrimSpace | rewrite.go:270 | the trimmed line neither starts nor ends with white space, and a line without surrounding white space is unchanged |
| GoStrings.TrimSpaceRemovesOnlySpace | rewrite.go:270 | the trimmed line is the infix of the line that starts after its leading white space, and everything before and after it is white space |
| GoStrings.TrimPrefix | rewrite.go:193 | with the prefix present, the prefix followed by the result is the input; without it, the input is returned unchanged |
| GoStrings.TrimSuffix | rewrite.go:174 | with the suffix present, the result followed by the suffix is the input; without it, the input is returned unchanged |
| GoStrings.IndexByte | rewrite.go:331 | the first index of the byte, or -1 exactly when it is absent |
| Rules.FirstNonDigit | rewrite.go:276-280 | the index of the first non-digit of the code, with every earlier character a digit; none exactly when the code is all digits |
| Rules.ParseRule | rewrite.go:269-304 | a line is refused as invalid exactly when it does not split into three pieces; an accepted rule is well formed: the pattern compiles and does not match the target, the code is the decimal value of the first piece, the pattern is non-empty, the rule is relative exactly when the pattern starts with '/', and it is no-redirect exactly when the code is <= 0; a three-piece line whose code is a 64-bit number and whose pattern compiles, is non-empty and does not match its target is accepted; a digit error names the first non-digit and its index; a loop error has a pattern that matches its target |
| Rules.ThreePartsNonEmpty | rewrite.go:270-276 | in a line that splits into three pieces, the code and the target are never empty |
| Rules.ParseRedirectMatchLine | rewrite.go:269-304 | the method, with the source's digit loop, returns exactly the rule or the error ParseRule gives |
| Rules.MatchAndReplace | rewrite.go:259-267 | a result exactly when the pattern matches and the replacement is non-empty, and the result is that replacement |
| Rules.NormalizeSubdomain | rewrite.go:97-99 | empty stays empty; otherwise the result ends with '.'; a value already ending with '.' is kept; otherwise exactly one '.' is appended |
| Rules.New | rewrite.go:85-109 | the method compiles the lines in order, stops at the first refused one, and normalises the primary subdomain, giving exactly NewEngine |
| Rules.CompileAllStep | rewrite.go:88-94 | compiling one more line appends its rule, or ends with that line's error |
| Rules.CompileAllPrefixErr | rewrite.go:88-94 | once a prefix of the lines is refused, the whole list is refused with the same error |
| RuleProperties.LineShape | rewrite.go:270-273 | an accepted line has exactly two spaces once trimmed, and any other count makes it invalid |
| RuleProperties.AcceptedLineIsThreeTokens | rewrite.go:270-276 | an accepted line, once trimmed, is its code, pattern and target joined by single spaces |
| RuleProperties.NoRedirectIffZeroCode | rewrite.go:299 | a rule rewrites in place exactly when its code is all zeros, that is, exactly when its value is 0 |
| RuleProperties.DigitErrorNamesFirst | rewrite.go:276-280 | a three-piece line whose code holds a non-digit is refused with the code, the index of its first non-digit and that character |
| RuleProperties.LoopRefused | rewrite.go:290-293 | a three-piece line with a 64-bit all-digit code whose pattern compiles and matches its own target is refused as a loop naming pattern and target |
| RuleProperties.OverflowRefused | rewrite.go:283-288 | a three-piece line whose all-digit code exceeds the largest 64-bit int is refused with the range error naming that code |
| RuleProperties.CodeFailsOnlyOnOverflow | rewrite.go:282-287 | after the digit check, the conversion can fail only by overflow of a non-empty all-digit code |
| RuleProperties.EmptyPatternNeedsNonMatchingEmptyRegexp | rewrite.go:290-300 | the empty-pattern error arises only when the empty regexp does not match the target |
| RuleProperties.NormalizeSubdomainIdempotent | rewrite.go:97-99 | normalising the primary subdomain twice is normalising it once |
| RuleProperties.CompileAllKeepsOrder | rewrite.go:88-94 | the compiled rules have the lines' length and order, and each is its own line's rule |
| RuleProperties.CompileAllAccepts | rewrite.go:88-94 | when every line is accepted, the list is accepted |
| RuleProperties.CompileAllFirstError | rewrite.go:88-94 | a refused list reports the error of its first refused line, and every earlier line is accepted |
| RuleProperties.NewEngineSound | rewrite.go:85-109 | New either builds a valid engine whose rules are the lines compiled in order and whose primary subdomain is the configured one normalised, or fails exactly when some line is refused, with the first refused line's error |
| Hosts.GetScheme | rewrite.go:317-328 | the URL's scheme, or "https"/"http" by whether the connection is TLS, always followed by "://" |
| Hosts.GetPort | rewrite.go:330-336 | the suffix of the host from its first ':'; it is empty exactly when there is no ':' or the ':' comes first |
| Hosts.GetHost | rewrite.go:338-343 | the URL's host when it is set, else the transport Host |
| Hosts.IsLoopback | rewrite.go:352 | a host is loopback exactly when it is one of the seven spellings "localhost", "127.0.0.1", "0.0.0.0", "::1", "[::1]", "0:0:0:0:0:0:0:0" and "0:0:0:0:0:0:0:1" |
| Hosts.GetDomain | rewrite.go:345-362 | "localhost" for the seven loopback spellings; else the eTLD+1 of the host, or the host itself when the lookup fails |
| Http.AfterRedirect | rewrite.go:366-383 | after a redirect: the status is the code and Location is the URL; Content-Type is set only when it was absent and the method is GET or HEAD; a body is written only for GET without an earlier Content-Type; no other header changes |
| Http.RedirectAbs | rewrite.go:366-383 | the method writes exactly the AfterRedirect response, with the URL used as given |
| Http.Redirect | rewrite.go:240 | the same response, with the Location resolved from the target against the request URL |
| Http.AfterError | rewrite.go:223 | http.Error's response: the given status, a plain-text no-sniff content type and a body; other headers keep their values, and no header besides those two is added |
| Http.Error | rewrite.go:223 | the method writes exactly the AfterError response |
| Pipeline.WithHost | rewrite.go:181-183 | both host fields are set to the new host, and nothing else of the request changes |
| Pipeline.DomainValid | rewrite.go:103-105 | a root is refused exactly when it ends in "localhost", so "localhost" and "www.localhost" are refused and every other root is accepted |
| Pipeline.Subject | rewrite.go:207-211 | a path rule is matched against the URL path; a full-URL rule is matched against exactly scheme + "://" + host + request URI |
| Pipeline.ApplyRule | rewrite.go:213-243 | a target equal to the subject forwards the request untouched; only a no-redirect rule whose target parses changes the request, and then only its URL, to the parsed target; a redirect carries the rule's code; a 421 carries the parse error of a no-redirect rule |
| Pipeline.ApplyRules | rewrite.go:206-247 | with no matching rule the request is forwarded unchanged; the rule loop changes at most the URL |
| Pipeline.CanonicalStep | rewrite.go:162-203 | the canonicaliser never answers 421; it redirects exactly on a bare root, and then with 301 to the moved URL as the library renders it; it changes only the two host fields; an untouched host is forwarded as it came |
| Pipeline.Process | rewrite.go:161-248 | a bare root is answered by the canonicaliser's 301 without consulting the rules; any other redirect comes from a matching rule |
| Pipeline.Canonicalize | rewrite.go:162-203 | no primary subdomain or a localhost root leaves the host alone; a bare root is redirected to primary+root+port; a host that is primary+root+port is served as root+port; a redirect target is always the primary subdomain on the request's own root and port |
| Pipeline.FirstMatch | rewrite.go:206-212 | the first rule at or after `i` whose matchAndReplace succeeds, with every earlier rule failing; none when no rule matches |
| Pipeline.CanonicalizeSubdomain | rewrite.go:162-203 | the method rewrites the request and writes the response exactly as CanonicalStep and Respond say |
| Pipeline.RunRules | rewrite.go:206-247 | the method's loop leaves request and response untouched until the first matching rule, then rewrites and answers exactly as ApplyRules and Respond say |
| Pipeline.Rewrite | rewrite.go:161-248 | Engine.rewrite leaves the request and the response exactly as Process and Respond say |
| PipelineProperties.CanonicalizeDecision | rewrite.go:162-203 | with a primary subdomain and a root not ending in "localhost", the host minus root+port decides: empty means a redirect, the primary subdomain means it is stripped to the host minus that prefix, and anything else leaves the host alone; without either condition nothing happens |
| PipelineProperties.PassthroughWhenNothingApplies | rewrite.go:161-248 | with no primary subdomain and no matching rule, the request is forwarded unchanged |
| PipelineProperties.LoopbackNeverCanonicalized | rewrite.go:168-172 | a loopback host is never canonicalised, whatever the primary subdomain |
| PipelineProperties.RootDomainRedirects | rewrite.go:178-186 | a bare root gets a 301 whose Location is the rendered URL with both host fields set to primary+root+port; path and query are kept, and no rule is consulted |
| PipelineProperties.PrimarySubdomainStripped | rewrite.go:188-198 | a request on the primary subdomain reaches the rules with the root host |
| PipelineProperties.OtherHostsUntouched | rewrite.go:200-206 | any other host reaches the rules unchanged |
| PipelineProperties.FirstMatchSkips | rewrite.go:206-212 | a non-matching rule in front shifts the first match by one and changes nothing else |
| PipelineProperties.FirstMatchIgnoresLater | rewrite.go:206-245 | rules after the first match do not change which rule matches first |
| PipelineProperties.FirstMatchWins | rewrite.go:206-245 | once some rule matches, appending rules does not change the outcome |
| PipelineProperties.NonMatchingRuleIsSkipped | rewrite.go:206-212 | a rule that does not match has no effect on the outcome |
| PipelineProperties.RulesChangeOnlyUrl | rewrite.go:219-229 | the rule loop changes at most the URL, and only when the first matching rule is no-redirect and its target parsed to that URL |
| PipelineProperties.RuleRedirectsCarryRuleCode | rewrite.go:232-243 | a redirect from the rule loop carries the first matching rule's positive code, and a full-URL rule redirects to its target exactly |
| PipelineProperties.MisdirectedOnlyOnParseFailure | rewrite.go:219-225 | a 421 comes only from a no-redirect rule whose target fails to parse, with the parse error as message, and the request unchanged |
| PipelineProperties.FirstRuleDecides | rewrite.go:213-243 | the first matching rule decides: it forwards when target equals subject, forwards with the parsed URL or answers 421 for a no-redirect rule, and otherwise redirects with its code, to the target exactly for a full-URL rule and to the resolved Location for a path rule |
| PipelineProperties.EmptyHostRedirects | rewrite.go:162-186 | a request with an empty host, when the domain of the empty host is not refused, is redirected to the primary subdomain followed by that domain |
| PipelineProperties.SameTargetForwards | rewrite.go:213-217 | a matching rule whose target equals its subject forwards the request untouched |
| Scenarios.ParseThreeTokens | rewrite.go:269-304 | three space-free tokens with an all-digit, 64-bit code, a compiling non-empty pattern and a non-matching target compile to the rule they spell |
| Scenarios.SeoRuleCompiles | _examples/basic/main.go:14 | "301 /seo/(.*) /$1" compiles to a relative 301 redirect |
| Scenarios.SubdomainRuleIsAbsolute | _examples/subdomains/main.go:107 | the example's test-subdomain line, whose pattern starts with `^(http`, compiles to a full-URL 301 redirect to `$1://newtest.$2` |
| Scenarios.FormatRuleRewritesInPlace | _examples/subdomains/main.go:108 | the example's format line with code 0 and pattern `/(.*).(json\|xml)` compiles to a relative in-place rewrite to `/$1?format=$2` |
| Scenarios.DoubledSpaceRefused | rewrite.go:270-273 | "301  /seo/(.*) /$1" with a doubled space is an invalid line |
| Scenarios.ExtraSpaceRefused | rewrite.go:270-273 | any line with a doubled space after its first token splits into four pieces and is invalid |
| Scenarios.LetterInCodeRefused | rewrite.go:276-280 | "30x /a /b" is refused with the code, index 2 and the character 'x' |
| Scenarios.CanonicalizeParts | rewrite.go:172-203 | for a public host made of a subdomain, a root and a port: an empty subdomain is redirected, the primary one is stripped, any other is left alone |
| Scenarios.BareRootCanonical | rewrite.go:172-186 | a bare public root with a port is redirected to primary+root+port |
| Scenarios.BareRootRedirected | rewrite.go:178-186 | a bare public root with a port gets a 301, and the request's host fields become the primary subdomain on that root and port |
| Scenarios.RootDomainToWww | _examples/subdomains/main.go:90 | mydomain.com:8080/about gets a 301, and both host fields become www.mydomain.com:8080 |
| Scenarios.WwwServedAsRoot | rewrite.go:188-198 | www.mydomain.com:8080 is served to the rules as mydomain.com:8080 |
| Scenarios.OtherSubdomainUntouched | _examples/subdomains/main.go:87 | test.mydomain.com:8080 is not canonicalised; only the rules can move it |
| Scenarios.LocalhostSeoRedirect | _examples/basic/main.go:34 | localhost:8080/seo/about is not canonicalised, and the seo rule answers 301 to /about |
| Scenarios.JsonRewrittenInPlace | _examples/subdomains/main.go:95 | /users.json is rewritten in place to the parsed /users?format=json and forwarded without a response |

## Left out

- `LoadOptions`, `Load` and YAML decoding are not modelled. They read a file and panic on errors. `New` takes the decoded `Options`.
- `SetLogger`, `debugf` and the `Debug` option only write log lines, so they are not modelled.
- `Handler` is not modelled: it only wraps `rewrite` in an `http.Handler`. `Forward` stands for calling the next handler.
- Concurrency is not modelled. The engine is read-only after `New`, and each request is handled on its own.
- The regexp engine, the public-suffix list, `net.SplitHostPort`, `net/url` and the Location resolution inside `http.Redirect` are not modelled. They are parameters (`Library`), and every property holds for any behaviour of theirs.
- The scenarios take the library's answers for their inputs as preconditions, e.g. that `/seo/(.*)` does not match `/$1`.
- `regexp.MustCompile` panics, and so does `pattern[0]` on an empty pattern. The model returns the errors `InvalidPattern` and `EmptyPattern` instead of panicking.
- With Go's regexp, `EmptyPattern` cannot arise: the empty pattern matches every target, so such a line is refused by the loop check first.
- The loop check is only the source's own: the pattern must not match its own target. Loops across several rules, or across a redirect and a later request, are not detected by the source, and the model does not claim they are.
- Error messages are not modelled as `fmt.Errorf` strings. Each `ParseError` variant carries the values the message is built from.
- The bytes of a response body are not modelled: the HTML-escaped link of a redirect and the text of `http.Error`. The model records only whether a body was written.
- `http.Error`'s removal of `Content-Length` is not modelled.
- `WriteHeader` panics on status codes outside 100–999. The model does not, and a compiled rule may carry any code from 1 up to the largest 64-bit int.
- `url.URL` is reduced to scheme, host, path and raw query. User info, fragment and raw path are carried only inside the library functions.
- Strings are sequences of characters, while Go indexes strings by byte. The two agree wherever the model uses an index. The digit error's index counts only ASCII digits before it. `getPort` and the trims split at ASCII characters or at the ends of whole substrings.
- The root domain is refused for canonicalisation when it ends in `localhost`, which is what `domainValidator` in rewrite.go:103-105 does. The model follows the code: a root such as `notlocalhost` is never canonicalised either.

=== FILE: collaborators.dfy ===
/** The library code the engine calls but does not own: Go's regexp engine,
    the public-suffix list, net.SplitHostPort, net/url and the part of
    http.Redirect that resolves the Location header. Each is a function value
    of a `Library`; nothing is assumed about its answers, so every property
    of the engine holds whatever they return. */
module Collaborators {
  import opened Wrappers

  /** The fields of url.URL that the engine reads or writes. */
  datatype Url = Url(scheme: string, host: string, path: string, rawQuery: string)

  datatype Library = Library(
    /** regexp.Compile(pattern) succeeds (MustCompile panics otherwise). */
    compiles: string -> bool,
    /** regexp.MustCompile(pattern).MatchString(subject). */
    matchString: (string, string) -> bool,
    /** regexp.MustCompile(pattern).ReplaceAllString(subject, template). */
    replaceAll: (string, string, string) -> string,
    /** The host part of net.SplitHostPort(hostport), None on its error. */
    splitHost: string -> Option<string>,
    /** publicsuffix.EffectiveTLDPlusOne(host), None on its error. */
    effectiveTLDPlusOne: string -> Option<string>,
    /** base.Parse(ref): the reference resolved against the request URL, or the error text. */
    parseRef: (Url, string) -> Result<Url, string>,
    /** url.URL.String(). */
    urlString: Url -> string,
    /** url.URL.RequestURI(): the encoded path and query. */
    requestURI: Url -> string,
    /** The Location http.Redirect sends for a target, resolved against the request URL. */
    redirectLocation: (Url, string) -> string
  )
}

=== FILE: gostrings.dfy ===
/** The parts of Go's `strings` and `unicode` packages that the rule compiler
    and the host arithmetic rely on, over strings as sequences of characters. */
module GoStrings {

  /** unicode.IsSpace: the characters with the Unicode White_Space property. */
  predicate IsSpace(c: char) {
    c == ' ' || ('\t' <= c <= '\r') || c == '\U{0085}' || c == '\U{00A0}' ||
    c == '\U{1680}' || ('\U{2000}' <= c <= '\U{200A}') || c == '\U{2028}' ||
    c == '\U{2029}' || c == '\U{202F}' || c == '\U{205F}' || c == '\U{3000}'
  }

  predicate HasPrefix(s: string, prefix: string) {
    |prefix| <= |s| && s[..|prefix|] == prefix
  }

  predicate HasSuffix(s: string, suffix: string) {
    |suffix| <= |s| && s[|s| - |suffix|..] == suffix
  }

  /** strings.TrimPrefix: removes `prefix` once when `s` starts with it. */
  function TrimPrefix(s: string, prefix: string): (r: string)
    ensures HasPrefix(s, prefix) ==> prefix + r == s
    ensures !HasPrefix(s, prefix) ==> r == s
  {
    if HasPrefix(s, prefix) then s[|prefix|..] else s
  }

  /** strings.TrimSuffix: removes `suffix` once when `s` ends with it. */
  function TrimSuffix(s: string, suffix: string): (r: string)
    ensures HasSuffix(s, suffix) ==> r + suffix == s
    ensures !HasSuffix(s, suffix) ==> r == s
  {
    if HasSuffix(s, suffix) then s[..|s| - |suffix|] else s
  }

  /** Number of occurrences of `c` in `s`. */
  function Count(s: string, c: char): nat {
    if s == [] then 0 else (if s[0] == c then 1 else 0) + Count(s[1..], c)
  }

  /** strings.IndexByte: the first index of `c` in `s`, or -1. */
  function IndexByte(s: string, c: char): (i: int)
    ensures -1 <= i < |s|
    ensures i >= 0 ==> s[i] == c && c !in s[..i]
    ensures i == -1 <==> c !in s
  {
    if s == [] then -1
    else if s[0] == c then 0
    else
      var k := IndexByte(s[1..], c);
      assert s[1..] == s[1..][..|s| - 1];
      if k < 0 then -1
      else
        assert s[..k + 1] == [s[0]] + s[1..][..k];
        k + 1
  }

  /** Drops the leading white space of `s`. */
  function TrimLeftSpace(s: string): (r: string)
    ensures |r| <= |s| && r == s[|s| - |r|..]
    ensures forall k :: 0 <= k < |s| - |r| ==> IsSpace(s[k])
    ensures r != [] ==> !IsSpace(r[0])
  {
    if s != [] && IsSpace(s[0]) then TrimLeftSpace(s[1..]) else s
  }

  /** Drops the trailing white space of `s`. */
  function TrimRightSpace(s: string): (r: string)
    ensures |r| <= |s| && r == s[..|r|]
    ensures forall k :: |r| <= k < |s| ==> IsSpace(s[k])
    ensures r != [] ==> !IsSpace(r[|r| - 1])
  {
    if s != [] && IsSpace(s[|s| - 1]) then TrimRightSpace(s[..|s| - 1]) else s
  }

  /** strings.TrimSpace: `s` without leading and trailing white space. */
  function TrimSpace(s: string): (r: string)
    ensures r != [] ==> !IsSpace(r[0]) && !IsSpace(r[|r| - 1])
    ensures (s == [] || (!IsSpace(s[0]) && !IsSpace(s[|s| - 1]))) ==> r == s
    ensures |r| <= |s|
  {
    TrimRightSpace(TrimLeftSpace(s))
  }

  /** `r` sits in `s` at index `i`, with only white space before and after it. */
  predicate InfixBySpace(s: string, r: string, i: int) {
    0 <= i <= |s| - |r| && r == s[i..i + |r|] &&
    (forall k :: 0 <= k < i ==> IsSpace(s[k])) &&
    (forall k :: i + |r| <= k < |s| ==> IsSpace(s[k]))
  }

  /** Cutting leading white space and then trailing white space leaves an
      infix of `s` bordered by white space only. */
  lemma TrimmedInfix(s: string, l: string, r: string)
    requires |l| <= |s| && l == s[|s| - |l|..]
    requires forall k :: 0 <= k < |s| - |l| ==> IsSpace(s[k])
    requires |r| <= |l| && r == l[..|r|]
    requires forall k :: |r| <= k < |l| ==> IsSpace(l[k])
    ensures InfixBySpace(s, r, |s| - |l|)
  {
    var i := |s| - |l|;
    assert r == s[i..i + |r|];
    forall k | i + |r| <= k < |s| ensures IsSpace(s[k]) {
      assert s[k] == l[k - i];
    }
  }

  /** TrimSpace removes only the leading and the trailing white space: the
      result is the part of `s` that starts after the leading white space. */
  lemma TrimSpaceRemovesOnlySpace(s: string)
    ensures InfixBySpace(s, TrimSpace(s), |s| - |TrimLeftSpace(s)|)
  {
    var l := TrimLeftSpace(s);
    TrimmedInfix(s, l, TrimRightSpace(l));
  }

  /** strings.Split(s, " "): the pieces of `s` between single spaces. */
  function Split(s: string): (parts: seq<string>)
    ensures |parts| == Count(s, ' ') + 1
    ensures forall i :: 0 <= i < |parts| ==> ' ' !in parts[i]
    decreases |s|
  {
    if s == [] then [[]]
    else
      var rest := Split(s[1..]);
      if s[0] == ' ' then [[]] + rest
      else [[s[0]] + rest[0]] + rest[1..]
  }

  /** strings.Join(parts, " "), the inverse of Split. */
  function Join(parts: seq<string>): string {
    if parts == [] then []
    else if |parts| == 1 then parts[0]
    else parts[0] + " " + Join(parts[1..])
  }

  /** Splitting and joining again gives back the string. */
  lemma {:induction false} JoinSplit(s: string)
    ensures Join(Split(s)) == s
    decreases |s|
  {
    if s != [] {
      var rest := Split(s[1..]);
      JoinSplit(s[1..]);
      if s[0] != ' ' && |rest| > 1 {
        assert Join(rest) == rest[0] + " " + Join(rest[1..]);
        assert rest[1..][1..] == rest[2..];
      }
    }
  }

  /** The first piece is empty exactly when `s` is empty or starts with a space. */
  lemma {:induction false} SplitFirst(s: string)
    ensures Split(s)[0] == [] <==> s == [] || s[0] == ' '
  {
  }

  /** The last piece is empty exactly when `s` is empty or ends with a space. */
  lemma {:induction false} SplitLast(s: string)
    ensures var parts := Split(s); parts[|parts| - 1] == [] <==> s == [] || s[|s| - 1] == ' '
    decreases |s|
  {
    if s != [] {
      SplitLast(s[1..]);
      if |s| > 1 {
        assert s[1..][|s| - 2] == s[|s| - 1];
      }
    }
  }

  /** Three space-free pieces joined by single spaces split back into those pieces. */
  lemma {:induction false} SplitThree(a: string, b: string, c: string)
    requires ' ' !in a && ' ' !in b && ' ' !in c
    ensures Split(a + " " + b + " " + c) == [a, b, c]
  {
    SplitNoSpace(c);
    assert Join([c]) == c;
    SplitPrefix(b, [c]);
    assert Join([b, c]) == b + " " + c == b + [' '] + Join([c]);
    SplitPrefix(a, [b, c]);
    assert a + " " + b + " " + c == a + [' '] + Join([b, c]);
  }

  lemma {:induction false} SplitNoSpace(s: string)
    requires ' ' !in s
    ensures Split(s) == [s]
    decreases |s|
  {
    if s != [] {
      SplitNoSpace(s[1..]);
      assert s == [s[0]] + s[1..];
    }
  }

  /** Prefixing a space-free word and a space adds that word as the first piece. */
  lemma {:induction false} SplitPrefix(a: string, rest: seq<string>)
    requires ' ' !in a
    requires |rest| > 0
    ensures Split(a + [' '] + Join(rest)) == [a] + Split(Join(rest))
    decreases |a|
  {
    if a == [] {
      assert a + [' '] + Join(rest) == [' '] + Join(rest);
      assert ([' '] + Join(rest))[1..] == Join(rest);
    } else {
      SplitPrefix(a[1..], rest);
      var s := a + [' '] + Join(rest);
      assert s[1..] == a[1..] + [' '] + Join(rest);
      assert [a[0]] + a[1..] == a;
    }
  }
}

=== FILE: hosts.dfy ===
/** Host and domain helpers of rewrite.go: plain string surgery on host[:port]. */
module Hosts {
  import opened Wrappers
  import opened GoStrings
  import opened Collaborators

  const Localhost: string := "localhost"

  /** getScheme: the URL's scheme, or https/http by whether the connection is
      TLS, followed by "://". */
  function GetScheme(url: Url, tls: bool): (r: string)
    ensures HasSuffix(r, "://") && |r| > 3
    ensures url.scheme != [] ==> r[..|r| - 3] == url.scheme
    ensures url.scheme == [] ==> r == (if tls then "https://" else "http://")
  {
    var scheme := if url.scheme != [] then url.scheme else if tls then "https" else "http";
    scheme + "://"
  }

  /** getPort: the suffix of `hostport` from its first ':' when that ':' is not
      the first character, else the empty string. */
  function GetPort(hostport: string): (r: string)
    ensures r != [] ==>
              r[0] == ':' && |r| < |hostport| && HasSuffix(hostport, r) &&
              ':' !in hostport[..|hostport| - |r|]
    ensures r == [] <==> ':' !in hostport || hostport[0] == ':'
  {
    var i := IndexByte(hostport, ':');
    if i > 0 then hostport[i..] else []
  }

  /** getHost: the URL's host when it is set, else the transport's Host. */
  function GetHost(url: Url, host: string): (r: string)
    ensures url.host != [] ==> r == url.host
    ensures url.host == [] ==> r == host
  {
    if url.host != [] then url.host else host
  }

  /** The host spellings getDomain treats as the local machine. */
  predicate IsLoopback(host: string): (b: bool)
    ensures b <==> host in ["localhost", "127.0.0.1", "0.0.0.0", "::1", "[::1]", "0:0:0:0:0:0:0:0", "0:0:0:0:0:0:0:1"]
  {
    host in {"localhost", "127.0.0.1", "0.0.0.0", "::1", "[::1]", "0:0:0:0:0:0:0:0", "0:0:0:0:0:0:0:1"}
  }

  /** `hostport` without its port, when net.SplitHostPort accepts it. */
  function HostOf(lib: Library, hostport: string): string {
    match lib.splitHost(hostport)
    case Some(h) => h
    case None => hostport
  }

  /** getDomain: "localhost" for a loopback host, else the registrable domain
      (eTLD+1), else the host itself when the public-suffix lookup fails. */
  function GetDomain(lib: Library, hostport: string): (r: string)
    ensures IsLoopback(HostOf(lib, hostport)) ==> r == Localhost
    ensures !IsLoopback(HostOf(lib, hostport)) ==>
              r == match lib.effectiveTLDPlusOne(HostOf(lib, hostport))
                   case Some(d) => d
                   case None => HostOf(lib, hostport)
  {
    var host := HostOf(lib, hostport);
    if IsLoopback(host) then Localhost
    else match lib.effectiveTLDPlusOne(host)
      case Some(domain) => domain
      case None => host
  }
}

=== FILE: http.dfy ===
/** The request and the response writer the engine works on, and the three
    ways it writes a response: redirectAbs, net/http's Redirect and net/http's
    Error. Only which headers are set, the status and whether a body is
    written are modelled, not the bytes of the body. */
module Http {
  import opened Collaborators

  const MethodGet: string := "GET"
  const MethodHead: string := "HEAD"
  const ContentTypeKey: string := "Content-Type"
  const LocationKey: string := "Location"
  const NoSniffKey: string := "X-Content-Type-Options"
  const HtmlContentType: string := "text/html; charset=utf-8"
  const TextContentType: string := "text/plain; charset=utf-8"

  const StatusMovedPermanently: int := 301
  const StatusMisdirectedRequest: int := 421

  /** What the engine sees of an *http.Request. */
  datatype RequestView = RequestView(httpMethod: string, host: string, url: Url, tls: bool)

  /** An *http.Request: the engine rewrites `host` and `url` in place. */
  class Request {
    var httpMethod: string
    var host: string
    var url: Url
    var tls: bool

    constructor (v: RequestView)
      ensures View() == v
    {
      httpMethod, host, url, tls := v.httpMethod, v.host, v.url, v.tls;
    }

    function View(): RequestView
      reads this
    {
      RequestView(httpMethod, host, url, tls)
    }
  }

  /** What has been written to an http.ResponseWriter: its header map, the
      status (0 until WriteHeader) and whether a body was written. */
  datatype ResponseView = ResponseView(header: map<string, string>, status: int, wroteBody: bool)

  class ResponseWriter {
    var header: map<string, string>
    var status: int
    var wroteBody: bool

    constructor ()
      ensures View() == ResponseView(map[], 0, false)
    {
      header, status, wroteBody := map[], 0, false;
    }

    function View(): ResponseView
      reads this
    {
      ResponseView(header, status, wroteBody)
    }
  }

  /** The response after a redirect to `url` with `code`: Location is set;
      Content-Type is set only when it was absent and the method is GET or HEAD;
      a body is written only for GET with no earlier Content-Type; no other
      header changes. */
  function AfterRedirect(w: ResponseView, httpMethod: string, url: string, code: int): (r: ResponseView)
    ensures r.status == code
    ensures LocationKey in r.header && r.header[LocationKey] == url
    ensures ContentTypeKey in w.header ==> ContentTypeKey in r.header && r.header[ContentTypeKey] == w.header[ContentTypeKey]
    ensures ContentTypeKey !in w.header ==>
              (ContentTypeKey in r.header <==> httpMethod == MethodGet || httpMethod == MethodHead)
    ensures ContentTypeKey !in w.header && ContentTypeKey in r.header ==> r.header[ContentTypeKey] == HtmlContentType
    ensures r.wroteBody <==> w.wroteBody || (ContentTypeKey !in w.header && httpMethod == MethodGet)
    ensures r.header.Keys <= w.header.Keys + {LocationKey, ContentTypeKey}
    ensures forall k :: k in w.header && k != LocationKey && k != ContentTypeKey ==>
              k in r.header && r.header[k] == w.header[k]
  {
    var hadCT := ContentTypeKey in w.header;
    var h := w.header[LocationKey := url];
    var h := if !hadCT && (httpMethod == MethodGet || httpMethod == MethodHead) then h[ContentTypeKey := HtmlContentType] else h;
    ResponseView(h, code, w.wroteBody || (!hadCT && httpMethod == MethodGet))
  }

  /** redirectAbs: a redirect whose Location is `url` exactly as given. */
  method RedirectAbs(w: ResponseWriter, r: Request, url: string, code: int)
    modifies w
    ensures w.View() == AfterRedirect(old(w.View()), r.httpMethod, url, code)
  {
    var hadCT := ContentTypeKey in w.header;
    w.header := w.header[LocationKey := url];
    if !hadCT && (r.httpMethod == MethodGet || r.httpMethod == MethodHead) {
      w.header := w.header[ContentTypeKey := HtmlContentType];
    }
    w.status := code;
    if !hadCT && r.httpMethod == MethodGet {
      w.wroteBody := true;
    }
  }

  /** http.Redirect: the same response as redirectAbs, with the Location the
      library resolves from the target against the request URL. */
  method Redirect(lib: Library, w: ResponseWriter, r: Request, target: string, code: int)
    modifies w
    ensures w.View() == AfterRedirect(old(w.View()), r.httpMethod, lib.redirectLocation(r.url, target), code)
  {
    RedirectAbs(w, r, lib.redirectLocation(r.url, target), code);
  }

  /** The response after http.Error: a plain-text, no-sniff response with the
      given status and the message as its body. */
  function AfterError(w: ResponseView, code: int): (r: ResponseView)
    ensures r.status == code && r.wroteBody
    ensures ContentTypeKey in r.header && r.header[ContentTypeKey] == TextContentType
    ensures NoSniffKey in r.header && r.header[NoSniffKey] == "nosniff"
    ensures forall k :: k in w.header && k != ContentTypeKey && k != NoSniffKey ==>
              k in r.header && r.header[k] == w.header[k]
    ensures r.header.Keys == w.header.Keys + {ContentTypeKey, NoSniffKey}
  {
    ResponseView(w.header[ContentTypeKey := TextContentType][NoSniffKey := "nosniff"], code, true)
  }

  /** http.Error. */
  method Error(w: ResponseWriter, message: string, code: int)
    modifies w
    ensures w.View() == AfterError(old(w.View()), code)
  {
    w.header := w.header[ContentTypeKey := TextContentType][NoSniffKey := "nosniff"];
    w.status := code;
    w.wroteBody := true;
  }
}

=== FILE: pipeline.dfy ===
/** The per-request pipeline of rewrite.go (Engine.rewrite): the subdomain
    canonicaliser, then the rule loop in which the first matching rule wins. */
module Pipeline {
  import opened Wrappers
  import opened GoStrings
  import opened Collaborators
  import opened Rules
  import opened Hosts
  import opened Http

  /** What the engine did with a request. */
  datatype Outcome =
    | Forward                                 // the next handler was called
    | Redirected(code: int, location: string) // a redirect response was written
    | Misdirected(message: string)            // a 421 response was written

  /** The outcome together with the request as the engine left it. */
  datatype Step = Step(outcome: Outcome, request: RequestView)

  /** The subdomain canonicaliser's decision. */
  datatype Canonical =
    | RootRedirect(newHost: string) // bare root domain: redirect to the primary subdomain
    | OnPrimary(rootHost: string)   // on the primary subdomain: present the request as the root
    | Untouched

  /** The host the engine works with: the URL's host, else the transport's. */
  function HostPort(req: RequestView): string {
    GetHost(req.url, req.host)
  }

  /** The root domain followed by the request's port. */
  function RootWithPort(lib: Library, hostport: string): string {
    GetDomain(lib, hostport) + GetPort(hostport)
  }

  /** domainValidator: a root that ends in "localhost" is never canonicalised. */
  predicate DomainValid(root: string): (b: bool)
    ensures b <==> !exists p :: root == p + Localhost
  {
    assert HasSuffix(root, Localhost) ==> root == root[..|root| - |Localhost|] + Localhost;
    !HasSuffix(root, Localhost)
  }

  /** Both host fields of the request set to `h`. */
  function WithHost(req: RequestView, h: string): (r: RequestView)
    ensures r.host == h && r.url.host == h && HostPort(r) == h
    ensures r.httpMethod == req.httpMethod && r.tls == req.tls
    ensures r.url.scheme == req.url.scheme && r.url.path == req.url.path && r.url.rawQuery == req.url.rawQuery
  {
    req.(host := h, url := req.url.(host := h))
  }

  /** The canonicaliser: it acts only when a primary subdomain is configured
      and the root domain is not a loopback one; it redirects a request on the
      bare root, strips the primary subdomain from a request already on it,
      and leaves every other host alone. */
  function Canonicalize(lib: Library, primary: string, req: RequestView): (c: Canonical)
    ensures primary == [] ==> c == Untouched
    ensures !DomainValid(GetDomain(lib, HostPort(req))) ==> c == Untouched
    ensures c.RootRedirect? ==>
              c.newHost == primary + RootWithPort(lib, HostPort(req)) &&
              (HostPort(req) == RootWithPort(lib, HostPort(req)) || HostPort(req) == [])
    ensures c.OnPrimary? ==> primary != [] && HostPort(req) == primary + c.rootHost
    ensures c.OnPrimary? && HasSuffix(HostPort(req), RootWithPort(lib, HostPort(req))) ==>
              c.rootHost == RootWithPort(lib, HostPort(req))
    ensures primary != [] && DomainValid(GetDomain(lib, HostPort(req))) && HostPort(req) == RootWithPort(lib, HostPort(req)) ==>
              c.RootRedirect?
    ensures primary != [] && DomainValid(GetDomain(lib, HostPort(req))) &&
            HostPort(req) == primary + RootWithPort(lib, HostPort(req)) ==>
              c == OnPrimary(RootWithPort(lib, HostPort(req)))
  {
    if primary == [] then Untouched
    else
      var hostport := HostPort(req);
      var root := GetDomain(lib, hostport);
      if !DomainValid(root) then Untouched
      else
        var rootPort := root + GetPort(hostport);
        var subdomain := TrimSuffix(hostport, rootPort);
        if subdomain == [] then RootRedirect(primary + rootPort)
        else if subdomain == primary then
          OnPrimary(TrimPrefix(hostport, subdomain))
        else Untouched
  }

  /** What a rule is matched against: the path for a relative rule, else the
      full URL (scheme, host and request URI). */
  function Subject(lib: Library, rd: RedirectMatch, req: RequestView): (r: string)
    ensures rd.isRelativePattern ==> r == req.url.path
    ensures !rd.isRelativePattern ==>
              HasPrefix(r, GetScheme(req.url, req.tls) + HostPort(req)) && HasSuffix(r, lib.requestURI(req.url))
    ensures !rd.isRelativePattern ==> r == GetScheme(req.url, req.tls) + HostPort(req) + lib.requestURI(req.url)
  {
    if rd.isRelativePattern then req.url.path
    else
      var front, uri := GetScheme(req.url, req.tls) + HostPort(req), lib.requestURI(req.url);
      assert (front + uri)[..|front|] == front && (front + uri)[|front|..] == uri;
      front + uri
  }

  /** The index of the first rule at or after `i` whose matchAndReplace succeeds. */
  function FirstMatch(lib: Library, rules: seq<RedirectMatch>, req: RequestView, i: nat): (r: Option<nat>)
    requires i <= |rules|
    ensures r.Some? ==>
              i <= r.value < |rules| &&
              MatchAndReplace(lib, rules[r.value], Subject(lib, rules[r.value], req)).Some? &&
              forall j :: i <= j < r.value ==> MatchAndReplace(lib, rules[j], Subject(lib, rules[j], req)).None?
    ensures r.None? ==>
              forall j :: i <= j < |rules| ==> MatchAndReplace(lib, rules[j], Subject(lib, rules[j], req)).None?
    decreases |rules| - i
  {
    if i == |rules| then None
    else if MatchAndReplace(lib, rules[i], Subject(lib, rules[i], req)).Some? then Some(i)
    else FirstMatch(lib, rules, req, i + 1)
  }

  /** The effect of the rule that matched: pass through when nothing would
      change, rewrite the URL in place for a no-redirect rule (421 when the
      target does not parse), else redirect with the rule's code. */
  function ApplyRule(lib: Library, rd: RedirectMatch, req: RequestView, target: string): (r: Step)
    ensures target == Subject(lib, rd, req) ==> r == Step(Forward, req)
    ensures r.request != req ==>
              r.outcome == Forward && rd.noRedirect && r.request == req.(url := r.request.url) &&
              lib.parseRef(req.url, target) == Ok(r.request.url)
    ensures r.outcome.Redirected? ==> r.request == req && !rd.noRedirect && r.outcome.code == rd.code
    ensures r.outcome.Misdirected? ==>
              r.request == req && rd.noRedirect && lib.parseRef(req.url, target) == Err(r.outcome.message)
  {
    var src := Subject(lib, rd, req);
    if target == src then Step(Forward, req)
    else if rd.noRedirect then
      match lib.parseRef(req.url, target)
      case Err(msg) => Step(Misdirected(msg), req)
      case Ok(u) => Step(Forward, req.(url := u))
    else if !rd.isRelativePattern then Step(Redirected(rd.code, target), req)
    else Step(Redirected(rd.code, lib.redirectLocation(req.url, target)), req)
  }

  /** The rule loop: the first rule that matches decides; none forwards the
      request unchanged. */
  function ApplyRules(lib: Library, rules: seq<RedirectMatch>, req: RequestView): (r: Step)
    ensures FirstMatch(lib, rules, req, 0).None? ==> r == Step(Forward, req)
    ensures r.request == req.(url := r.request.url)
  {
    match FirstMatch(lib, rules, req, 0)
    case None => Step(Forward, req)
    case Some(k) =>
      var rd := rules[k];
      ApplyRule(lib, rd, req, MatchAndReplace(lib, rd, Subject(lib, rd, req)).value)
  }

  /** Engine.rewrite as a value: the canonicaliser, then the rule loop. */
  function Process(e: Engine, lib: Library, req: RequestView): (r: Step)
    ensures Canonicalize(lib, e.primarySubdomain, req).RootRedirect? ==>
              r == CanonicalStep(lib, e.primarySubdomain, req) && r.outcome.Redirected? &&
              r.outcome.code == StatusMovedPermanently
    ensures r.outcome.Redirected? && !Canonicalize(lib, e.primarySubdomain, req).RootRedirect? ==>
              FirstMatch(lib, e.redirects, CanonicalStep(lib, e.primarySubdomain, req).request, 0).Some?
  {
    var canonical := CanonicalStep(lib, e.primarySubdomain, req);
    if canonical.outcome.Redirected? then canonical
    else ApplyRules(lib, e.redirects, canonical.request)
  }

  /** The response as the outcome leaves it. */
  function Respond(w: ResponseView, httpMethod: string, o: Outcome): ResponseView {
    match o
    case Forward => w
    case Redirected(code, location) => AfterRedirect(w, httpMethod, location, code)
    case Misdirected(_) => AfterError(w, StatusMisdirectedRequest)
  }

  /** The request after the canonicaliser, and the redirect it sends, if any. */
  function CanonicalStep(lib: Library, primary: string, req: RequestView): (r: Step)
    ensures !r.outcome.Misdirected?
    ensures r.outcome.Redirected? <==> Canonicalize(lib, primary, req).RootRedirect?
    ensures r.outcome.Redirected? ==> r.outcome.code == StatusMovedPermanently
    ensures r.outcome.Redirected? ==>
              r.outcome.location == lib.redirectLocation(r.request.url, lib.urlString(r.request.url))
    ensures r.request == req.(host := r.request.host, url := req.url.(host := r.request.url.host))
    ensures Canonicalize(lib, primary, req) == Untouched ==> r == Step(Forward, req)
  {
    match Canonicalize(lib, primary, req)
    case RootRedirect(newHost) =>
      var moved := WithHost(req, newHost);
      Step(Redirected(StatusMovedPermanently, lib.redirectLocation(moved.url, lib.urlString(moved.url))), moved)
    case OnPrimary(rootHost) => Step(Forward, WithHost(req, rootHost))
    case Untouched => Step(Forward, req)
  }

  /** Engine.rewrite: canonicalise the host, then try the rules in order; the
      request is rewritten in place and the response written as Process and
      Respond say. */
  method Rewrite(e: Engine, lib: Library, w: ResponseWriter, r: Request) returns (o: Outcome)
    modifies r, w
    ensures Step(o, r.View()) == Process(e, lib, old(r.View()))
    ensures w.View() == Respond(old(w.View()), old(r.httpMethod), o)
  {
    var sent := CanonicalizeSubdomain(e.primarySubdomain, lib, w, r);
    if sent.Redirected? {
      return sent;
    }
    o := RunRules(e.redirects, lib, w, r);
  }

  /** The canonicaliser stage of Engine.rewrite. */
  method CanonicalizeSubdomain(primarySubdomain: string, lib: Library, w: ResponseWriter, r: Request) returns (o: Outcome)
    modifies r, w
    ensures Step(o, r.View()) == CanonicalStep(lib, primarySubdomain, old(r.View()))
    ensures w.View() == Respond(old(w.View()), old(r.httpMethod), o)
  {
    ghost var req := r.View();
    if primarySubdomain != [] {
      var hostport := GetHost(r.url, r.host);
      var root := GetDomain(lib, hostport);
      if !HasSuffix(root, Localhost) {
        root := root + GetPort(hostport);
        var subdomain := TrimSuffix(hostport, root);
        if subdomain == [] {
          assert Canonicalize(lib, primarySubdomain, req) == RootRedirect(primarySubdomain + root);
          var newHost := primarySubdomain + root;
          r.host := newHost;
          r.url := r.url.(host := newHost);
          var location := lib.urlString(r.url);
          Redirect(lib, w, r, location, StatusMovedPermanently);
          return Redirected(StatusMovedPermanently, lib.redirectLocation(r.url, location));
        }
        if subdomain == primarySubdomain {
          var rootHost := TrimPrefix(hostport, subdomain);
          assert Canonicalize(lib, primarySubdomain, req) == OnPrimary(rootHost);
          r.host := rootHost;
          r.url := r.url.(host := rootHost);
        } else {
          assert Canonicalize(lib, primarySubdomain, req) == Untouched;
        }
      } else {
        assert Canonicalize(lib, primarySubdomain, req) == Untouched;
      }
    }
    o := Forward;
  }

  /** The rule loop of Engine.rewrite: the first rule whose matchAndReplace
      succeeds decides, and the loop stops there. */
  method RunRules(rules: seq<RedirectMatch>, lib: Library, w: ResponseWriter, r: Request) returns (o: Outcome)
    modifies r, w
    ensures Step(o, r.View()) == ApplyRules(lib, rules, old(r.View()))
    ensures w.View() == Respond(old(w.View()), old(r.httpMethod), o)
  {
    var i := 0;
    while i < |rules|
      invariant 0 <= i <= |rules|
      invariant r.View() == old(r.View()) && w.View() == old(w.View())
      invariant FirstMatch(lib, rules, r.View(), 0) == FirstMatch(lib, rules, r.View(), i)
    {
      var rd := rules[i];
      var src := r.url.path;
      if !rd.isRelativePattern {
        src := GetScheme(r.url, r.tls) + GetHost(r.url, r.host) + lib.requestURI(r.url);
      }
      var matched := MatchAndReplace(lib, rd, src);
      if matched.Some? {
        var target := matched.value;
        if target == src {
          return Forward;
        }
        if rd.noRedirect {
          var u := lib.parseRef(r.url, target);
          if u.Err? {
            Error(w, u.error, StatusMisdirectedRequest);
            return Misdirected(u.error);
          }
          r.url := u.value;
          return Forward;
        }
        if !rd.isRelativePattern {
          RedirectAbs(w, r, target, rd.code);
          o := Redirected(rd.code, target);
        } else {
          Redirect(lib, w, r, target, rd.code);
          o := Redirected(rd.code, lib.redirectLocation(r.url, target));
        }
        return;
      }
      i := i + 1;
    }
    o := Forward;
  }
}

=== FILE: pipeline_properties.dfy ===
/** What the per-request pipeline promises: when it leaves a request alone,
    that the first matching rule alone decides, what the canonicaliser does to
    the host, and what each outcome may change. */
module PipelineProperties {
  import opened Wrappers
  import opened GoStrings
  import opened Collaborators
  import opened Rules
  import opened Hosts
  import opened Http
  import opened Pipeline

  /** With no primary subdomain and no rule that matches, the request is
      forwarded exactly as it came. */
  lemma PassthroughWhenNothingApplies(e: Engine, lib: Library, req: RequestView)
    requires e.primarySubdomain == []
    requires forall k :: 0 <= k < |e.redirects| ==>
               MatchAndReplace(lib, e.redirects[k], Subject(lib, e.redirects[k], req)).None?
    ensures Process(e, lib, req) == Step(Forward, req)
  {
  }

  /** A loopback host is never canonicalised, whatever the primary subdomain. */
  lemma LoopbackNeverCanonicalized(lib: Library, primary: string, req: RequestView)
    requires IsLoopback(HostOf(lib, HostPort(req)))
    ensures Canonicalize(lib, primary, req) == Untouched
    ensures CanonicalStep(lib, primary, req) == Step(Forward, req)
  {
    assert GetDomain(lib, HostPort(req)) == Localhost;
    assert HasSuffix(Localhost, Localhost);
  }

  /** A request on the bare root domain is redirected with 301 to the primary
      subdomain on the same root and port: both host fields are rewritten, the
      Location is the rewritten URL as the library renders it, and no rule is
      consulted. */
  lemma RootDomainRedirects(e: Engine, lib: Library, req: RequestView, other: seq<RedirectMatch>)
    requires Canonicalize(lib, e.primarySubdomain, req).RootRedirect?
    ensures var s := Process(e, lib, req);
            s.outcome.Redirected? && s.outcome.code == StatusMovedPermanently &&
            s.request.host == e.primarySubdomain + RootWithPort(lib, HostPort(req)) &&
            s.request.url.host == s.request.host &&
            s.request.url.path == req.url.path && s.request.url.rawQuery == req.url.rawQuery &&
            s.outcome.location == lib.redirectLocation(s.request.url, lib.urlString(s.request.url))
    ensures Process(e, lib, req) == Process(e.(redirects := other), lib, req)
  {
  }

  /** A request on the primary subdomain is presented to the rules as the
      root host: the host is the primary subdomain followed by the new host. */
  lemma PrimarySubdomainStripped(e: Engine, lib: Library, req: RequestView)
    requires Canonicalize(lib, e.primarySubdomain, req).OnPrimary?
    ensures var rootHost := Canonicalize(lib, e.primarySubdomain, req).rootHost;
            HostPort(req) == e.primarySubdomain + rootHost &&
            Process(e, lib, req) == ApplyRules(lib, e.redirects, WithHost(req, rootHost))
  {
  }

  /** Any other host reaches the rules unchanged. */
  lemma OtherHostsUntouched(e: Engine, lib: Library, req: RequestView)
    requires Canonicalize(lib, e.primarySubdomain, req) == Untouched
    ensures Process(e, lib, req) == ApplyRules(lib, e.redirects, req)
  {
  }

  /** A rule that does not match the request can be dropped from the front. */
  lemma {:induction false} FirstMatchSkips(lib: Library, rd: RedirectMatch, rules: seq<RedirectMatch>, req: RequestView, i: nat)
    requires i <= |rules|
    requires MatchAndReplace(lib, rd, Subject(lib, rd, req)).None?
    ensures FirstMatch(lib, [rd] + rules, req, i + 1) ==
              match FirstMatch(lib, rules, req, i)
              case None => None
              case Some(k) => Some(k + 1)
    ensures FirstMatch(lib, [rd] + rules, req, 0) == FirstMatch(lib, [rd] + rules, req, 1)
    decreases |rules| - i
  {
    if i < |rules| {
      assert ([rd] + rules)[i + 1] == rules[i];
      FirstMatchSkips(lib, rd, rules, req, i + 1);
    }
  }

  /** Rules after the first match are never consulted. */
  lemma {:induction false} FirstMatchIgnoresLater(lib: Library, rules: seq<RedirectMatch>, more: seq<RedirectMatch>, req: RequestView, i: nat)
    requires i <= |rules|
    requires FirstMatch(lib, rules, req, i).Some?
    ensures FirstMatch(lib, rules + more, req, i) == FirstMatch(lib, rules, req, i)
    decreases |rules| - i
  {
    assert (rules + more)[i] == rules[i];
    if MatchAndReplace(lib, rules[i], Subject(lib, rules[i], req)).None? {
      FirstMatchIgnoresLater(lib, rules, more, req, i + 1);
    }
  }

  /** First match wins: once some rule matches, appending rules changes nothing. */
  lemma FirstMatchWins(lib: Library, rules: seq<RedirectMatch>, more: seq<RedirectMatch>, req: RequestView)
    requires exists k :: 0 <= k < |rules| && MatchAndReplace(lib, rules[k], Subject(lib, rules[k], req)).Some?
    ensures ApplyRules(lib, rules + more, req) == ApplyRules(lib, rules, req)
  {
    var k :| 0 <= k < |rules| && MatchAndReplace(lib, rules[k], Subject(lib, rules[k], req)).Some?;
    assert FirstMatch(lib, rules, req, 0).Some?;
    FirstMatchIgnoresLater(lib, rules, more, req, 0);
    var f := FirstMatch(lib, rules, req, 0).value;
    assert (rules + more)[f] == rules[f];
  }

  /** A rule that does not match has no effect on the outcome. */
  lemma NonMatchingRuleIsSkipped(lib: Library, rd: RedirectMatch, rules: seq<RedirectMatch>, req: RequestView)
    requires MatchAndReplace(lib, rd, Subject(lib, rd, req)).None?
    ensures ApplyRules(lib, [rd] + rules, req) == ApplyRules(lib, rules, req)
  {
    FirstMatchSkips(lib, rd, rules, req, 0);
    var f := FirstMatch(lib, rules, req, 0);
    if f.Some? {
      assert ([rd] + rules)[f.value + 1] == rules[f.value];
    }
  }

  /** The rule loop changes at most the request's URL, and only through a
      no-redirect rule whose target parsed; nothing else of the request
      changes. */
  lemma RulesChangeOnlyUrl(lib: Library, rules: seq<RedirectMatch>, req: RequestView)
    ensures var s := ApplyRules(lib, rules, req);
            s.request == req.(url := s.request.url) &&
            (s.request != req ==>
               s.outcome == Forward &&
               exists k :: 0 <= k < |rules| && FirstMatch(lib, rules, req, 0) == Some(k) && rules[k].noRedirect &&
                 lib.parseRef(req.url, MatchAndReplace(lib, rules[k], Subject(lib, rules[k], req)).value) == Ok(s.request.url))
  {
    var s := ApplyRules(lib, rules, req);
    if s.request != req {
      var k := FirstMatch(lib, rules, req, 0).value;
      assert FirstMatch(lib, rules, req, 0) == Some(k);
    }
  }

  /** A redirect from the rule loop carries the first matching rule's code,
      which is positive for a compiled rule; a full-URL rule redirects to its
      target exactly. */
  lemma RuleRedirectsCarryRuleCode(lib: Library, rules: seq<RedirectMatch>, req: RequestView)
    requires forall i :: 0 <= i < |rules| ==> WellFormed(lib, rules[i])
    requires ApplyRules(lib, rules, req).outcome.Redirected?
    ensures var o := ApplyRules(lib, rules, req).outcome;
            exists k :: 0 <= k < |rules| && FirstMatch(lib, rules, req, 0) == Some(k) &&
              !rules[k].noRedirect && o.code == rules[k].code && o.code > 0 &&
              (!rules[k].isRelativePattern ==>
                 o.location == MatchAndReplace(lib, rules[k], Subject(lib, rules[k], req)).value)
  {
    var k := FirstMatch(lib, rules, req, 0).value;
    assert WellFormed(lib, rules[k]);
  }

  /** The 421 answer arises only from a no-redirect rule whose target does
      not parse, and the request is left as it was. */
  lemma MisdirectedOnlyOnParseFailure(lib: Library, rules: seq<RedirectMatch>, req: RequestView)
    requires ApplyRules(lib, rules, req).outcome.Misdirected?
    ensures ApplyRules(lib, rules, req).request == req
    ensures exists k :: 0 <= k < |rules| && FirstMatch(lib, rules, req, 0) == Some(k) && rules[k].noRedirect &&
              lib.parseRef(req.url, MatchAndReplace(lib, rules[k], Subject(lib, rules[k], req)).value) ==
                Err(ApplyRules(lib, rules, req).outcome.message)
  {
    var k := FirstMatch(lib, rules, req, 0).value;
    assert FirstMatch(lib, rules, req, 0) == Some(k);
  }

  /** A matching rule whose target equals its subject forwards the request untouched. */
  lemma SameTargetForwards(lib: Library, rules: seq<RedirectMatch>, req: RequestView, k: nat)
    requires FirstMatch(lib, rules, req, 0) == Some(k)
    requires MatchAndReplace(lib, rules[k], Subject(lib, rules[k], req)).value == Subject(lib, rules[k], req)
    ensures ApplyRules(lib, rules, req) == Step(Forward, req)
  {
  }

  /** The first matching rule decides, case by case: a target equal to the
      subject forwards; a no-redirect rule replaces the URL with the parsed
      target and forwards, or answers 421 when the target does not parse;
      any other rule redirects with its code, to the target itself for a
      full-URL rule and to the resolved target for a path rule. */
  lemma FirstRuleDecides(lib: Library, rules: seq<RedirectMatch>, req: RequestView, k: nat)
    requires FirstMatch(lib, rules, req, 0) == Some(k)
    ensures var rd := rules[k];
            var src := Subject(lib, rd, req);
            var target := MatchAndReplace(lib, rd, src).value;
            var s := ApplyRules(lib, rules, req);
            (target == src ==> s == Step(Forward, req)) &&
            (target != src && rd.noRedirect && lib.parseRef(req.url, target).Ok? ==>
               s == Step(Forward, req.(url := lib.parseRef(req.url, target).value))) &&
            (target != src && rd.noRedirect && lib.parseRef(req.url, target).Err? ==>
               s == Step(Misdirected(lib.parseRef(req.url, target).error), req)) &&
            (target != src && !rd.noRedirect && !rd.isRelativePattern ==>
               s == Step(Redirected(rd.code, target), req)) &&
            (target != src && !rd.noRedirect && rd.isRelativePattern ==>
               s == Step(Redirected(rd.code, lib.redirectLocation(req.url, target)), req))
  {
  }

  /** A request with no host at all (empty URL host and empty Host) is
      redirected to the primary subdomain followed by the root the library
      gives for the empty host, whenever that root is not a localhost one:
      trimming the root from the empty host leaves the empty subdomain. */
  lemma EmptyHostRedirects(lib: Library, primary: string, req: RequestView)
    requires primary != [] && HostPort(req) == []
    requires DomainValid(GetDomain(lib, []))
    ensures Canonicalize(lib, primary, req) == RootRedirect(primary + GetDomain(lib, []))
    ensures CanonicalStep(lib, primary, req).outcome.Redirected?
  {
    assert GetPort([]) == [];
    assert GetDomain(lib, []) + GetPort([]) == GetDomain(lib, []);
  }

  /** The canonicaliser's decision exactly as the code takes it: with a
      primary subdomain and a root that is not a loopback, the host minus its
      root and port selects the branch; an empty rest redirects, a rest equal
      to the primary subdomain strips it, and anything else is left alone. */
  lemma CanonicalizeDecision(lib: Library, primary: string, req: RequestView)
    ensures var c := Canonicalize(lib, primary, req);
            var sub := TrimSuffix(HostPort(req), RootWithPort(lib, HostPort(req)));
            var act := primary != [] && DomainValid(GetDomain(lib, HostPort(req)));
            (c.RootRedirect? <==> act && sub == []) &&
            (c.OnPrimary? <==> act && sub == primary) &&
            (c.OnPrimary? ==> c.rootHost == TrimPrefix(HostPort(req), primary))
  {
  }
}

=== FILE: rule_properties.dfy ===
/** What the rule compiler promises: the shape of an accepted line, the
    meaning of its status code, the loop check, and the order New keeps. */
module RuleProperties {
  import opened Wrappers
  import opened GoStrings
  import opened Strconv
  import opened Collaborators
  import opened Rules

  /** A line is accepted only when its trimmed text has exactly two spaces,
      so that it splits into code, pattern and target; a doubled space adds a piece. */
  lemma LineShape(lib: Library, s: string)
    ensures ParseRule(lib, s).Ok? ==> Count(TrimSpace(s), ' ') == 2
    ensures Count(TrimSpace(s), ' ') != 2 ==> ParseRule(lib, s) == Err(InvalidLine(s))
  {
  }

  /** An accepted line is, once trimmed, exactly its code, pattern and target
      joined by single spaces. */
  lemma {:induction false} AcceptedLineIsThreeTokens(lib: Library, s: string)
    requires ParseRule(lib, s).Ok?
    ensures var rd := ParseRule(lib, s).value;
            TrimSpace(s) == Parts(s)[0] + " " + rd.pattern + " " + rd.target
  {
    JoinSplit(TrimSpace(s));
    JoinThree(Parts(s));
  }

  /** Three pieces join with a single space between each pair. */
  lemma JoinThree(p: seq<string>)
    requires |p| == 3
    ensures Join(p) == p[0] + " " + p[1] + " " + p[2]
  {
    assert Join(p[1..]) == p[1] + " " + Join(p[2..]);
  }

  /** A rule rewrites in place (no redirect) exactly when its code is made of
      zeros only: with digits alone, `code <= 0` means the value 0. */
  lemma NoRedirectIffZeroCode(lib: Library, s: string)
    requires ParseRule(lib, s).Ok?
    ensures ParseRule(lib, s).value.noRedirect <==> forall i :: 0 <= i < |Parts(s)[0]| ==> Parts(s)[0][i] == '0'
    ensures ParseRule(lib, s).value.noRedirect <==> ParseRule(lib, s).value.code == 0
  {
    DecimalValueZero(Parts(s)[0]);
  }

  /** A three-piece line whose code holds a non-digit is refused naming the
      code, the first non-digit's index and that character. */
  lemma DigitErrorNamesFirst(lib: Library, s: string)
    requires |Parts(s)| == 3 && FirstNonDigit(Parts(s)[0]).Some?
    ensures var c := Parts(s)[0];
            var i := FirstNonDigit(c).value;
            ParseRule(lib, s) == Err(StatusCodeDigit(c, i, c[i]))
  {
  }

  /** A three-piece line with a 64-bit all-digit code whose pattern compiles
      and matches its own target is refused as a loop. */
  lemma LoopRefused(lib: Library, s: string)
    requires |Parts(s)| == 3 && AllDigits(Parts(s)[0]) && DecimalValue(Parts(s)[0]) <= MaxInt64
    requires lib.compiles(Parts(s)[1]) && lib.matchString(Parts(s)[1], Parts(s)[2])
    ensures ParseRule(lib, s) == Err(LoopDetected(Parts(s)[1], Parts(s)[2]))
  {
    AtoiDigits(Parts(s)[0]);
    assert FirstNonDigit(Parts(s)[0]).None?;
  }

  /** A three-piece line whose all-digit code overflows a 64-bit int is
      refused with the conversion's range error, naming the code. */
  lemma OverflowRefused(lib: Library, s: string)
    requires |Parts(s)| == 3 && AllDigits(Parts(s)[0]) && DecimalValue(Parts(s)[0]) > MaxInt64
    ensures ParseRule(lib, s) == Err(StatusCodeValue(Parts(s)[0], ErrRange))
  {
    ThreePartsNonEmpty(s);
    AtoiDigits(Parts(s)[0]);
    assert FirstNonDigit(Parts(s)[0]).None?;
  }

  /** The conversion of an all-digit code can fail only by overflowing a
      64-bit int: the code is never empty. */
  lemma CodeFailsOnlyOnOverflow(lib: Library, s: string)
    requires ParseRule(lib, s).Err? && ParseRule(lib, s).error.StatusCodeValue?
    ensures var e := ParseRule(lib, s).error;
            e.cause == ErrRange && e.code != [] && AllDigits(e.code) && DecimalValue(e.code) > MaxInt64
  {
    ThreePartsNonEmpty(s);
    var codeStr := Parts(s)[0];
    assert FirstNonDigit(codeStr).None?;
    AtoiDigits(codeStr);
  }

  /** An empty pattern is reported only when the regexp library says the empty
      pattern does not match the target; Go's engine matches it everywhere, so
      there such a line is refused by the loop check instead. */
  lemma EmptyPatternNeedsNonMatchingEmptyRegexp(lib: Library, s: string)
    requires ParseRule(lib, s) == Err(EmptyPattern)
    ensures Parts(s)[1] == [] && !lib.matchString([], Parts(s)[2])
  {
  }

  /** Normalising the primary subdomain twice is normalising it once. */
  lemma NormalizeSubdomainIdempotent(p: string)
    ensures NormalizeSubdomain(NormalizeSubdomain(p)) == NormalizeSubdomain(p)
  {
  }

  /** Every compiled list keeps the order and length of its lines, and each
      rule is what its own line compiles to. */
  lemma {:induction false} CompileAllKeepsOrder(parse: string -> Result<RedirectMatch, ParseError>, lines: seq<string>)
    requires CompileAll(parse, lines).Ok?
    ensures |CompileAll(parse, lines).value| == |lines|
    ensures forall i :: 0 <= i < |lines| ==> parse(lines[i]) == Ok(CompileAll(parse, lines).value[i])
    decreases |lines|
  {
    if lines != [] {
      var n := |lines| - 1;
      var init := lines[..n];
      CompileAllKeepsOrder(parse, init);
      var rules := CompileAll(parse, init).value;
      forall i | 0 <= i < n
        ensures parse(lines[i]) == Ok(CompileAll(parse, lines).value[i])
      {
        assert lines[i] == init[i];
      }
    }
  }

  /** When every line is accepted, so is the list. */
  lemma {:induction false} CompileAllAccepts(parse: string -> Result<RedirectMatch, ParseError>, lines: seq<string>)
    requires forall i :: 0 <= i < |lines| ==> parse(lines[i]).Ok?
    ensures CompileAll(parse, lines).Ok?
    decreases |lines|
  {
    if lines != [] {
      var init := lines[..|lines| - 1];
      assert forall i :: 0 <= i < |init| ==> init[i] == lines[i];
      CompileAllAccepts(parse, init);
    }
  }

  /** A refused list is refused with the error of its first refused line. */
  lemma {:induction false} CompileAllFirstError(parse: string -> Result<RedirectMatch, ParseError>, lines: seq<string>)
    requires CompileAll(parse, lines).Err?
    ensures exists k :: 0 <= k < |lines| &&
              parse(lines[k]) == Err(CompileAll(parse, lines).error) &&
              forall j :: 0 <= j < k ==> parse(lines[j]).Ok?
    decreases |lines|
  {
    var n := |lines| - 1;
    var init := lines[..n];
    assert forall i :: 0 <= i < |init| ==> init[i] == lines[i];
    if CompileAll(parse, init).Err? {
      CompileAllFirstError(parse, init);
      var k :| 0 <= k < |init| && parse(init[k]) == Err(CompileAll(parse, init).error) &&
               forall j :: 0 <= j < k ==> parse(init[j]).Ok?;
      assert parse(lines[k]) == Err(CompileAll(parse, lines).error);
    } else {
      CompileAllKeepsOrder(parse, init);
      assert parse(lines[n]) == Err(CompileAll(parse, lines).error);
    }
  }

  /** New either builds an engine whose rules are the lines compiled in order,
      all loop-free, with a primary subdomain that ends with '.', or reports
      the first bad line's error and builds nothing. */
  lemma NewEngineSound(lib: Library, opts: Options)
    ensures NewEngine(lib, opts).Ok? ==>
              ValidEngine(lib, NewEngine(lib, opts).value) &&
              |NewEngine(lib, opts).value.redirects| == |opts.redirectMatch| &&
              (forall i :: 0 <= i < |opts.redirectMatch| ==>
                 ParseRule(lib, opts.redirectMatch[i]) == Ok(NewEngine(lib, opts).value.redirects[i]))
    ensures NewEngine(lib, opts).Ok? ==>
              NewEngine(lib, opts).value.primarySubdomain == NormalizeSubdomain(opts.primarySubdomain)
    ensures NewEngine(lib, opts).Err? <==>
              exists k :: 0 <= k < |opts.redirectMatch| && ParseRule(lib, opts.redirectMatch[k]).Err?
    ensures NewEngine(lib, opts).Err? ==>
              exists k :: 0 <= k < |opts.redirectMatch| &&
                ParseRule(lib, opts.redirectMatch[k]) == Err(NewEngine(lib, opts).error) &&
                forall j :: 0 <= j < k ==> ParseRule(lib, opts.redirectMatch[j]).Ok?
  {
    if NewEngine(lib, opts).Ok? {
      NewEngineBuilt(lib, opts);
    } else {
      NewEngineRefused(lib, opts);
    }
    if exists k :: 0 <= k < |opts.redirectMatch| && ParseRule(lib, opts.redirectMatch[k]).Err? {
      if NewEngine(lib, opts).Ok? {
        CompileAllKeepsOrder(LineParser(lib), opts.redirectMatch);
      }
    } else {
      CompileAllAccepts(LineParser(lib), opts.redirectMatch);
    }
  }

  /** A built engine holds every line's rule, in order, each well formed. */
  lemma NewEngineBuilt(lib: Library, opts: Options)
    requires NewEngine(lib, opts).Ok?
    ensures ValidEngine(lib, NewEngine(lib, opts).value)
    ensures |NewEngine(lib, opts).value.redirects| == |opts.redirectMatch|
    ensures forall i :: 0 <= i < |opts.redirectMatch| ==>
              ParseRule(lib, opts.redirectMatch[i]) == Ok(NewEngine(lib, opts).value.redirects[i])
  {
    var lines := opts.redirectMatch;
    var rules := NewEngine(lib, opts).value.redirects;
    CompileAllKeepsOrder(LineParser(lib), lines);
    forall i | 0 <= i < |rules| ensures WellFormed(lib, rules[i]) {
      assert ParseRule(lib, lines[i]) == Ok(rules[i]);
    }
  }

  /** A refused configuration reports the error of its first refused line. */
  lemma NewEngineRefused(lib: Library, opts: Options)
    requires NewEngine(lib, opts).Err?
    ensures exists k :: 0 <= k < |opts.redirectMatch| &&
              ParseRule(lib, opts.redirectMatch[k]) == Err(NewEngine(lib, opts).error) &&
              forall j :: 0 <= j < k ==> ParseRule(lib, opts.redirectMatch[j]).Ok?
  {
    CompileAllFirstError(LineParser(lib), opts.redirectMatch);
  }
}

=== FILE: rules.dfy ===
/** The rule compiler of rewrite.go: `CODE PATTERN TARGET` lines become
    compiled redirect rules, and `New` builds the engine from a list of them. */
module Rules {
  import opened Wrappers
  import opened GoStrings
  import opened Strconv
  import opened Collaborators

  /** A compiled rule. The pattern is kept as its source text; the library's
      regexp functions take it as their first argument. */
  datatype RedirectMatch = RedirectMatch(
    code: int,
    pattern: string,
    target: string,
    isRelativePattern: bool,  // the pattern is matched against the path only
    noRedirect: bool          // rewrite the request in place instead of redirecting
  )

  /** Why a rule line was refused. The last three are panics in Go
      (regexp.MustCompile, and `pattern[0]` on an empty pattern). */
  datatype ParseError =
    | InvalidLine(line: string)
    | StatusCodeDigit(code: string, index: nat, ch: char)
    | StatusCodeValue(code: string, cause: NumError)
    | InvalidPattern(pattern: string)
    | LoopDetected(pattern: string, target: string)
    | EmptyPattern

  /** What holds of every rule the compiler accepts. */
  predicate WellFormed(lib: Library, rd: RedirectMatch) {
    lib.compiles(rd.pattern) &&
    !lib.matchString(rd.pattern, rd.target) &&
    0 <= rd.code <= MaxInt64 &&
    rd.noRedirect == (rd.code <= 0) &&
    rd.pattern != [] && rd.isRelativePattern == (rd.pattern[0] == '/')
  }

  /** The first position of `s` that is not a decimal digit, if any. */
  function FirstNonDigit(s: string): (r: Option<nat>)
    ensures r.Some? ==> r.value < |s| && !IsDigit(s[r.value]) && AllDigits(s[..r.value])
    ensures r.None? <==> AllDigits(s)
  {
    if s == [] then None
    else if !IsDigit(s[0]) then Some(0)
    else match FirstNonDigit(s[1..])
      case None => None
      case Some(k) =>
        assert s[..k + 1] == [s[0]] + s[1..][..k];
        Some(k + 1)
  }

  /** The first non-digit is the one after an all-digit prefix. */
  lemma FirstNonDigitAt(s: string, i: nat)
    requires i < |s| && AllDigits(s[..i]) && !IsDigit(s[i])
    ensures FirstNonDigit(s) == Some(i)
  {
  }

  /** The pieces of a rule line: its trimmed text split on single spaces. */
  function Parts(s: string): seq<string> {
    Split(TrimSpace(s))
  }

  /** parseRedirectMatchLine, as a value: the rule a line compiles to, or why it is refused. */
  function ParseRule(lib: Library, s: string): (r: Result<RedirectMatch, ParseError>)
    ensures |Parts(s)| != 3 <==> r == Err(InvalidLine(s))
    ensures r.Ok? ==>
              |Parts(s)| == 3 && WellFormed(lib, r.value) && AllDigits(Parts(s)[0]) &&
              r.value.code == DecimalValue(Parts(s)[0]) &&
              r.value.pattern == Parts(s)[1] && r.value.target == Parts(s)[2]
    ensures |Parts(s)| == 3 && AllDigits(Parts(s)[0]) && DecimalValue(Parts(s)[0]) <= MaxInt64 &&
            lib.compiles(Parts(s)[1]) && !lib.matchString(Parts(s)[1], Parts(s)[2]) && Parts(s)[1] != [] ==>
              r.Ok?
    ensures r.Err? && r.error.StatusCodeDigit? ==>
              r.error.code == Parts(s)[0] && r.error.index < |r.error.code| &&
              r.error.ch == r.error.code[r.error.index] && !IsDigit(r.error.ch) &&
              AllDigits(r.error.code[..r.error.index])
    ensures r.Err? && r.error.LoopDetected? ==> lib.matchString(r.error.pattern, r.error.target)
  {
    var parts := Parts(s);
    if |parts| != 3 then Err(InvalidLine(s))
    else
      ThreePartsNonEmpty(s);
      var codeStr, pattern, target := parts[0], parts[1], parts[2];
      match FirstNonDigit(codeStr)
      case Some(i) => Err(StatusCodeDigit(codeStr, i, codeStr[i]))
      case None =>
        AtoiDigits(codeStr);
        match Atoi(codeStr)
        case Err(e) => Err(StatusCodeValue(codeStr, e))
        case Ok(code) =>
          if !lib.compiles(pattern) then Err(InvalidPattern(pattern))
          else if lib.matchString(pattern, target) then Err(LoopDetected(pattern, target))
          else if pattern == [] then Err(EmptyPattern)
          else Ok(RedirectMatch(code, pattern, target, pattern[0] == '/', code <= 0))
  }

  /** In a line with three pieces the code and the target are never empty,
      because the trimmed line neither starts nor ends with a space. */
  lemma ThreePartsNonEmpty(s: string)
    requires |Parts(s)| == 3
    ensures Parts(s)[0] != [] && Parts(s)[2] != []
  {
    var t := TrimSpace(s);
    SplitFirst(t);
    SplitLast(t);
  }

  /** parseRedirectMatchLine: split, check the code digit by digit, convert it,
      compile the pattern and refuse a rule whose pattern matches its own target. */
  method ParseRedirectMatchLine(lib: Library, s: string) returns (r: Result<RedirectMatch, ParseError>)
    ensures r == ParseRule(lib, s)
  {
    var parts := Split(TrimSpace(s));
    if |parts| != 3 {
      return Err(InvalidLine(s));
    }
    var codeStr, pattern, target := parts[0], parts[1], parts[2];
    var i := 0;
    while i < |codeStr|
      invariant 0 <= i <= |codeStr|
      invariant AllDigits(codeStr[..i])
    {
      if !IsDigit(codeStr[i]) {
        FirstNonDigitAt(codeStr, i);
        return Err(StatusCodeDigit(codeStr, i, codeStr[i]));
      }
      assert codeStr[..i + 1] == codeStr[..i] + [codeStr[i]];
      i := i + 1;
    }
    assert codeStr[..i] == codeStr;
    var code := Atoi(codeStr);
    if code.Err? {
      return Err(StatusCodeValue(codeStr, code.error));
    }
    if !lib.compiles(pattern) {
      return Err(InvalidPattern(pattern));
    }
    if lib.matchString(pattern, target) {
      return Err(LoopDetected(pattern, target));
    }
    if pattern == [] {
      return Err(EmptyPattern);
    }
    r := Ok(RedirectMatch(code.value, pattern, target, pattern[0] == '/', code.value <= 0));
  }

  /** matchAndReplace: the rewritten subject, when the pattern matches and the
      replacement is not empty. */
  function MatchAndReplace(lib: Library, rd: RedirectMatch, src: string): (r: Option<string>)
    ensures r.Some? <==> lib.matchString(rd.pattern, src) && lib.replaceAll(rd.pattern, src, rd.target) != []
    ensures r.Some? ==> r.value == lib.replaceAll(rd.pattern, src, rd.target) && r.value != []
  {
    if lib.matchString(rd.pattern, src) then
      var m := lib.replaceAll(rd.pattern, src, rd.target);
      if m != [] then Some(m) else None
    else None
  }

  /** The configuration `New` consumes (the debug flag only drives logging). */
  datatype Options = Options(redirectMatch: seq<string>, primarySubdomain: string)

  /** The engine: its rules in priority order and the normalised primary subdomain. */
  datatype Engine = Engine(redirects: seq<RedirectMatch>, primarySubdomain: string)

  /** `www` becomes `www.`; a value that already ends with `.`, or is empty, is kept. */
  function NormalizeSubdomain(p: string): (r: string)
    ensures p == [] <==> r == []
    ensures r != [] ==> r[|r| - 1] == '.'
    ensures HasSuffix(p, ".") ==> r == p
    ensures r == p || r == p + "."
  {
    if p != [] && !HasSuffix(p, ".") then p + "." else p
  }

  predicate ValidEngine(lib: Library, e: Engine) {
    (forall i :: 0 <= i < |e.redirects| ==> WellFormed(lib, e.redirects[i])) &&
    (e.primarySubdomain == [] || HasSuffix(e.primarySubdomain, "."))
  }

  /** ParseRule for a fixed library, as a value the list compiler can take. */
  function LineParser(lib: Library): (parse: string -> Result<RedirectMatch, ParseError>)
    ensures forall line :: parse(line) == ParseRule(lib, line)
  {
    line => ParseRule(lib, line)
  }

  /** The rules compiled from `lines` with `parse`, in order, or the error of
      the first line that is refused. */
  function CompileAll(parse: string -> Result<RedirectMatch, ParseError>, lines: seq<string>): Result<seq<RedirectMatch>, ParseError>
    decreases |lines|
  {
    if lines == [] then Ok([])
    else match CompileAll(parse, lines[..|lines| - 1])
      case Err(e) => Err(e)
      case Ok(rules) =>
        match parse(lines[|lines| - 1])
        case Err(e) => Err(e)
        case Ok(rd) => Ok(rules + [rd])
  }

  /** The engine `New` builds from `opts`, or the error it reports. */
  function NewEngine(lib: Library, opts: Options): Result<Engine, ParseError> {
    match CompileAll(LineParser(lib), opts.redirectMatch)
    case Err(e) => Err(e)
    case Ok(rules) => Ok(Engine(rules, NormalizeSubdomain(opts.primarySubdomain)))
  }

  /** New: compile every line in order, stopping at the first refused one,
      then normalise the primary subdomain. */
  method New(lib: Library, opts: Options) returns (r: Result<Engine, ParseError>)
    ensures r == NewEngine(lib, opts)
  {
    var lines := opts.redirectMatch;
    var parse := LineParser(lib);
    var redirects: seq<RedirectMatch> := [];
    var i := 0;
    while i < |lines|
      invariant 0 <= i <= |lines|
      invariant CompileAll(parse, lines[..i]) == Ok(redirects)
    {
      var rd := ParseRedirectMatchLine(lib, lines[i]);
      CompileAllStep(parse, lines, i, redirects, rd);
      if rd.Err? {
        CompileAllPrefixErr(parse, lines, i + 1);
        return Err(rd.error);
      }
      redirects := redirects + [rd.value];
      i := i + 1;
    }
    assert lines[..i] == lines;
    var primary := opts.primarySubdomain;
    if primary != [] && !HasSuffix(primary, ".") {
      primary := primary + ".";
    }
    r := Ok(Engine(redirects, primary));
  }

  /** Compiling one more line extends the rules or reports its error. */
  lemma CompileAllStep(parse: string -> Result<RedirectMatch, ParseError>, lines: seq<string>, i: nat,
                       rules: seq<RedirectMatch>, rd: Result<RedirectMatch, ParseError>)
    requires i < |lines| && CompileAll(parse, lines[..i]) == Ok(rules) && rd == parse(lines[i])
    ensures CompileAll(parse, lines[..i + 1]) == if rd.Ok? then Ok(rules + [rd.value]) else Err(rd.error)
  {
    assert lines[..i + 1][..i] == lines[..i];
  }

  /** Once a prefix of the lines is refused, the whole list is refused with the same error. */
  lemma {:induction false} CompileAllPrefixErr(parse: string -> Result<RedirectMatch, ParseError>, lines: seq<string>, n: nat)
    requires n <= |lines|
    requires CompileAll(parse, lines[..n]).Err?
    ensures CompileAll(parse, lines) == CompileAll(parse, lines[..n])
    decreases |lines| - n
  {
    if n < |lines| {
      var longer := lines[..n + 1];
      assert longer[..n] == lines[..n];
      CompileAllPrefixErr(parse, lines, n + 1);
    } else {
      assert lines[..n] == lines;
    }
  }
}

=== FILE: scenarios.dfy ===
/** The example servers' rule tables and hosts, stated as lemmas about the model. The
    library's answers for these inputs (what the regexp engine and the
    public-suffix list return) are stated as preconditions. */
module Scenarios {
  import opened Wrappers
  import opened GoStrings
  import opened Strconv
  import opened Collaborators
  import opened Rules
  import opened Hosts
  import opened Http
  import opened Pipeline

  /** A line that is three space-free tokens joined by single spaces, with
      nothing around them, splits into those tokens. */
  lemma PartsOfThreeTokens(s: string, code: string, pattern: string, target: string)
    requires s == code + " " + pattern + " " + target
    requires code != [] && target != [] && !IsSpace(code[0]) && !IsSpace(target[|target| - 1])
    requires ' ' !in code && ' ' !in pattern && ' ' !in target
    ensures Parts(s) == [code, pattern, target]
  {
    assert s[0] == code[0] && s[|s| - 1] == target[|target| - 1];
    SplitThree(code, pattern, target);
  }

  /** A line of three well-formed tokens compiles to the rule they describe. */
  lemma ParseThreeTokens(lib: Library, line: string, code: string, pattern: string, target: string)
    requires line == code + " " + pattern + " " + target
    requires code != [] && target != [] && !IsSpace(code[0]) && !IsSpace(target[|target| - 1])
    requires ' ' !in code && ' ' !in pattern && ' ' !in target
    requires AllDigits(code) && DecimalValue(code) <= MaxInt64 && pattern != []
    requires lib.compiles(pattern) && !lib.matchString(pattern, target)
    ensures ParseRule(lib, line) ==
              Ok(RedirectMatch(DecimalValue(code), pattern, target, pattern[0] == '/', DecimalValue(code) == 0))
  {
    PartsOfThreeTokens(line, code, pattern, target);
    AtoiDigits(code);
  }

  /** "301 /seo/(.*) /$1" compiles to a relative redirect with code 301. */
  lemma SeoRuleCompiles(lib: Library, pattern: string, target: string)
    requires pattern == "/seo/(.*)" && target == "/$1"
    requires lib.compiles(pattern) && !lib.matchString(pattern, target)
    ensures ParseRule(lib, "301" + " " + pattern + " " + target) == Ok(RedirectMatch(301, pattern, target, true, false))
  {
    Code301();
    ParseThreeTokens(lib, "301" + " " + pattern + " " + target, "301", pattern, target);
  }

  /** "0 /(.*).(json|xml) /$1?format=$2" compiles to an in-place rewrite. */
  lemma FormatRuleRewritesInPlace(lib: Library, pattern: string, target: string)
    requires pattern == "/(.*).(json|xml)" && target == "/$1?format=$2"
    requires lib.compiles(pattern) && !lib.matchString(pattern, target)
    ensures ParseRule(lib, "0" + " " + pattern + " " + target) == Ok(RedirectMatch(0, pattern, target, true, true))
  {
    assert DecimalValue("0") == 0 by { assert "0"[..0] == []; }
    assert !IsSpace(target[|target| - 1]) by { assert target[|target| - 1] == '2'; }
    ParseThreeTokens(lib, "0" + " " + pattern + " " + target, "0", pattern, target);
  }

  /** "301 ^(http|https)://test.(.*) $1://newtest.$2" matches the full URL. */
  lemma SubdomainRuleIsAbsolute(lib: Library, pattern: string, target: string)
    requires pattern == "^(http|https)://test.(.*)" && target == "$1://newtest.$2"
    requires lib.compiles(pattern) && !lib.matchString(pattern, target)
    ensures ParseRule(lib, "301" + " " + pattern + " " + target) == Ok(RedirectMatch(301, pattern, target, false, false))
  {
    Code301();
    assert !IsSpace(target[|target| - 1]) by { assert target[|target| - 1] == '2'; }
    ParseThreeTokens(lib, "301" + " " + pattern + " " + target, "301", pattern, target);
  }

  lemma Code301()
    ensures DecimalValue("301") == 301
  {
    assert DecimalValue("3") == 3 by { assert "3"[..0] == []; }
    assert DecimalValue("30") == 30 by { assert "30"[..1] == "3"; }
    assert "301"[..2] == "30";
  }

  /** A doubled space between the code and the pattern gives four pieces
      and the line is refused. */
  lemma DoubledSpaceRefused(lib: Library, line: string)
    requires line == "301  /seo/(.*) /$1"
    ensures ParseRule(lib, line) == Err(InvalidLine(line))
  {
    ExtraSpaceRefused(lib, line, "301", "/seo/(.*)", "/$1");
  }

  /** Any line with two spaces after its first token has four pieces. */
  lemma ExtraSpaceRefused(lib: Library, line: string, a: string, b: string, c: string)
    requires line == a + "  " + b + " " + c
    requires a != [] && c != [] && !IsSpace(a[0]) && !IsSpace(c[|c| - 1])
    requires ' ' !in a && ' ' !in b && ' ' !in c
    ensures ParseRule(lib, line) == Err(InvalidLine(line))
  {
    assert line[0] == a[0] && line[|line| - 1] == c[|c| - 1];
    assert TrimSpace(line) == line;
    SpacesIn(a, b, c);
  }

  /** The spaces of a line with a doubled first separator. */
  lemma SpacesIn(a: string, b: string, c: string)
    requires ' ' !in a && ' ' !in b && ' ' !in c
    ensures Count(a + "  " + b + " " + c, ' ') == 3
  {
    CountNone(a); CountNone(b); CountNone(c);
    CountConcat(a, "  ");
    CountConcat(a + "  ", b);
    CountConcat(a + "  " + b, " ");
    CountConcat(a + "  " + b + " ", c);
  }

  lemma {:induction false} CountConcat(a: string, b: string)
    ensures Count(a + b, ' ') == Count(a, ' ') + Count(b, ' ')
    decreases |a|
  {
    if a != [] {
      assert (a + b)[0] == a[0];
      assert (a + b)[1..] == a[1..] + b;
      CountConcat(a[1..], b);
    } else {
      assert a + b == b;
    }
  }

  lemma {:induction false} CountNone(s: string)
    requires ' ' !in s
    ensures Count(s, ' ') == 0
    decreases |s|
  {
    if s != [] {
      assert s[0] != ' ';
      CountNone(s[1..]);
    }
  }

  /** A letter in the code is reported with its index and character. */
  lemma LetterInCodeRefused(lib: Library, line: string)
    requires line == "30x /a /b"
    ensures ParseRule(lib, line) == Err(StatusCodeDigit("30x", 2, 'x'))
  {
    PartsOfThreeTokens(line, "30x", "/a", "/b");
    assert FirstNonDigit("30x") == Some(2);
  }

  /** A plain-HTTP GET request for `path` on `host`, with an empty URL host. */
  function GetRequest(host: string, path: string): (r: RequestView)
    ensures HostPort(r) == host && r.url.path == path && !r.tls
  {
    RequestView("GET", host, Url("", "", path, ""), false)
  }

  /** Cutting a host into its subdomain and the rest. */
  lemma TrimAround(sub: string, root: string, port: string)
    ensures TrimSuffix(sub + root + port, root + port) == sub
    ensures TrimPrefix(sub + root + port, sub) == root + port
  {
    var h := sub + root + port;
    assert h == sub + (root + port);
    assert h[|h| - |root + port|..] == root + port;
    assert h[..|sub|] == sub;
  }

  /** The port of a host whose first ':' starts its last part. */
  lemma PortAfter(host: string, port: string)
    requires host != [] && ':' !in host && port != [] && port[0] == ':'
    ensures GetPort(host + port) == port
  {
    var h := host + port;
    var i := IndexByte(h, ':');
    assert h[|host|] == ':' && h[..|host|] == host;
    assert h[|host|..] == port;
  }

  /** The canonicaliser on a host made of a subdomain, a public root domain
      and a port: a bare root is redirected, the primary subdomain is
      stripped, any other subdomain is left alone. */
  lemma CanonicalizeParts(lib: Library, primary: string, sub: string, root: string, port: string, path: string)
    requires sub + root != [] && ':' !in sub + root && port != [] && port[0] == ':'
    requires lib.splitHost(sub + root + port) == Some(sub + root) && !IsLoopback(sub + root)
    requires lib.effectiveTLDPlusOne(sub + root) == Some(root)
    requires primary != [] && DomainValid(root)
    ensures Canonicalize(lib, primary, GetRequest(sub + root + port, path)) ==
              if sub == [] then RootRedirect(primary + (root + port))
              else if sub == primary then OnPrimary(root + port)
              else Untouched
  {
    var hostport := sub + root + port;
    HostParts(lib, sub, root, port);
    assert HostPort(GetRequest(hostport, path)) == hostport;
  }

  /** What the canonicaliser computes from such a host. */
  lemma HostParts(lib: Library, sub: string, root: string, port: string)
    requires sub + root != [] && ':' !in sub + root && port != [] && port[0] == ':'
    requires lib.splitHost(sub + root + port) == Some(sub + root) && !IsLoopback(sub + root)
    requires lib.effectiveTLDPlusOne(sub + root) == Some(root)
    ensures GetDomain(lib, sub + root + port) + GetPort(sub + root + port) == root + port
    ensures TrimSuffix(sub + root + port, root + port) == sub
    ensures TrimPrefix(sub + root + port, sub) == root + port
  {
    assert GetDomain(lib, sub + root + port) == root;
    PortAfter(sub + root, port);
    TrimAround(sub, root, port);
  }

  /** A host under "mydomain.com" is neither a loopback host nor a localhost
      root, and its name holds no ':'. */
  lemma MyDomainIsPublic(sub: string, root: string)
    requires root == "mydomain.com" && ':' !in sub
    ensures !IsLoopback(sub + root) && DomainValid(root) && ':' !in sub + root
    ensures !IsLoopback(root) && ':' !in root
  {
    var h := sub + root;
    assert h[|h| - 1] == 'm';
    assert root[|root| - |Localhost|..][0] == 'o';
  }

  /** http://mydomain.com:8080/about is redirected with 301 to
      www.mydomain.com:8080, the same path. */
  lemma RootDomainToWww(e: Engine, lib: Library, root: string, port: string)
    requires root == "mydomain.com" && port == ":8080"
    requires e.primarySubdomain == "www."
    requires lib.splitHost(root + port) == Some(root)
    requires lib.effectiveTLDPlusOne(root) == Some(root)
    ensures var s := Process(e, lib, GetRequest(root + port, "/about"));
            s.outcome.Redirected? && s.outcome.code == 301 &&
            s.request == GetRequest("www." + root + port, "/about").(url := Url("", "www." + root + port, "/about", ""))
  {
    MyDomainIsPublic("www.", root);
    BareRootRedirected(e, lib, root, port, "/about");
  }

  /** A request on a bare public root domain is redirected with 301 to the
      primary subdomain, with the same port and path. */
  lemma BareRootRedirected(e: Engine, lib: Library, root: string, port: string, path: string)
    requires root != [] && ':' !in root && port != [] && port[0] == ':'
    requires lib.splitHost(root + port) == Some(root) && !IsLoopback(root)
    requires lib.effectiveTLDPlusOne(root) == Some(root)
    requires e.primarySubdomain != [] && DomainValid(root)
    ensures var s := Process(e, lib, GetRequest(root + port, path));
            s.outcome.Redirected? && s.outcome.code == 301 &&
            s.request == GetRequest(e.primarySubdomain + root + port, path).(url := Url("", e.primarySubdomain + root + port, path, ""))
  {
    var req := GetRequest(root + port, path);
    var newHost := e.primarySubdomain + (root + port);
    BareRootCanonical(lib, e.primarySubdomain, root, port, path);
    var moved := WithHost(req, newHost);
    assert CanonicalStep(lib, e.primarySubdomain, req) ==
             Step(Redirected(301, lib.redirectLocation(moved.url, lib.urlString(moved.url))), moved);
    JoinHost(e.primarySubdomain, root, port);
  }

  lemma JoinHost(sub: string, root: string, port: string)
    ensures sub + (root + port) == sub + root + port
  {
  }

  /** The canonicaliser's decision for a bare public root domain. */
  lemma BareRootCanonical(lib: Library, primary: string, root: string, port: string, path: string)
    requires root != [] && ':' !in root && port != [] && port[0] == ':'
    requires lib.splitHost(root + port) == Some(root) && !IsLoopback(root)
    requires lib.effectiveTLDPlusOne(root) == Some(root)
    requires primary != [] && DomainValid(root)
    ensures Canonicalize(lib, primary, GetRequest(root + port, path)) == RootRedirect(primary + (root + port))
  {
    assert GetDomain(lib, root + port) == root;
    PortAfter(root, port);
    assert TrimSuffix(root + port, root + port) == [] by {
      assert (root + port)[0..] == root + port;
    }
  }

  /** http://www.mydomain.com:8080 is served as mydomain.com:8080 and the rules
      still run. */
  lemma WwwServedAsRoot(e: Engine, lib: Library, root: string, port: string)
    requires root == "mydomain.com" && port == ":8080"
    requires e.primarySubdomain == "www."
    requires lib.splitHost("www." + root + port) == Some("www." + root)
    requires lib.effectiveTLDPlusOne("www." + root) == Some(root)
    ensures Canonicalize(lib, e.primarySubdomain, GetRequest("www." + root + port, "/")) == OnPrimary(root + port)
    ensures Process(e, lib, GetRequest("www." + root + port, "/")) ==
              ApplyRules(lib, e.redirects, GetRequest(root + port, "/").(url := Url("", root + port, "/", "")))
  {
    MyDomainIsPublic("www.", root);
    CanonicalizeParts(lib, "www.", "www.", root, port, "/");
  }

  /** http://test.mydomain.com:8080 is left to the rules unchanged. */
  lemma OtherSubdomainUntouched(e: Engine, lib: Library, root: string, port: string)
    requires root == "mydomain.com" && port == ":8080"
    requires e.primarySubdomain == "www."
    requires lib.splitHost("test." + root + port) == Some("test." + root)
    requires lib.effectiveTLDPlusOne("test." + root) == Some(root)
    ensures Canonicalize(lib, e.primarySubdomain, GetRequest("test." + root + port, "/")) == Untouched
  {
    MyDomainIsPublic("test.", root);
    assert "test."[0] != "www."[0];
    CanonicalizeParts(lib, "www.", "test.", root, port, "/");
  }

  /** http://localhost:8080/seo/about is not canonicalised: the seo rule
      answers with a 301 to /about. */
  lemma LocalhostSeoRedirect(e: Engine, lib: Library, hostport: string)
    requires hostport == "localhost:8080"
    requires e.primarySubdomain == "www."
    requires e.redirects == [RedirectMatch(301, "/seo/(.*)", "/$1", true, false)]
    requires lib.splitHost(hostport) == Some("localhost")
    requires lib.matchString("/seo/(.*)", "/seo/about") && lib.replaceAll("/seo/(.*)", "/seo/about", "/$1") == "/about"
    ensures Process(e, lib, GetRequest(hostport, "/seo/about")) ==
              Step(Redirected(301, lib.redirectLocation(Url("", "", "/seo/about", ""), "/about")),
                   GetRequest(hostport, "/seo/about"))
  {
    assert IsLoopback(HostOf(lib, hostport));
    assert HasSuffix(Localhost, Localhost);
  }

  /** /users.json is rewritten in place to the parsed /users?format=json and
      forwarded without any response. */
  lemma JsonRewrittenInPlace(lib: Library, format: RedirectMatch, u: Url)
    requires format == RedirectMatch(0, "/(.*).(json|xml)", "/$1?format=$2", true, true)
    requires lib.matchString("/(.*).(json|xml)", "/users.json")
    requires lib.replaceAll("/(.*).(json|xml)", "/users.json", "/$1?format=$2") == "/users?format=json"
    requires lib.parseRef(Url("", "", "/users.json", ""), "/users?format=json") == Ok(u)
    ensures ApplyRules(lib, [format], GetRequest("mydomain.com:8080", "/users.json")) ==
              Step(Forward, GetRequest("mydomain.com:8080", "/users.json").(url := u))
  {
  }

}

=== FILE: strconv.dfy ===
/** Decimal digits and Go's strconv.Atoi on a 64-bit platform. */
module Strconv {
  import opened Wrappers

  const MaxInt64: int := 0x7fff_ffff_ffff_ffff
  const MinInt64: int := -0x8000_0000_0000_0000

  /** isDigit of rewrite.go: an ASCII decimal digit. */
  predicate IsDigit(c: char): (b: bool)
    ensures b <==> 0 <= c as int - '0' as int < 10
  {
    '0' <= c <= '9'
  }

  predicate AllDigits(s: string) {
    forall i :: 0 <= i < |s| ==> IsDigit(s[i])
  }

  /** The value of a string of decimal digits, most significant first. */
  function DecimalValue(s: string): (v: nat)
    requires AllDigits(s)
    decreases |s|
  {
    if s == [] then 0
    else
      var init := s[..|s| - 1];
      assert AllDigits(init);
      DecimalValue(init) * 10 + (s[|s| - 1] as int - '0' as int)
  }

  /** Why strconv.Atoi failed. */
  datatype NumError = ErrSyntax | ErrRange

  /** strconv.Atoi: an optional sign followed by at least one decimal digit,
      whose value must fit a 64-bit int. The error kind agrees with Go's on
      strings of digits, the only input the rule compiler passes; on a long
      string that overflows before a bad character Go reports a range error
      where this reports a syntax error. */
  function Atoi(s: string): (r: Result<int, NumError>)
    ensures r.Ok? ==> MinInt64 <= r.value <= MaxInt64
    ensures s == [] ==> r == Err(ErrSyntax)
    ensures r.Ok? && s[0] != '-' ==> r.value >= 0
  {
    var neg := s != [] && s[0] == '-';
    var digits := if s != [] && (s[0] == '+' || s[0] == '-') then s[1..] else s;
    if digits == [] || !AllDigits(digits) then Err(ErrSyntax)
    else
      var v := DecimalValue(digits);
      if neg then (if v > MaxInt64 + 1 then Err(ErrRange) else Ok(0 - v as int))
      else (if v > MaxInt64 then Err(ErrRange) else Ok(v))
  }

  /** On a non-empty digit string, Atoi fails only when the value overflows. */
  lemma AtoiDigits(s: string)
    requires s != [] && AllDigits(s)
    ensures Atoi(s) == if DecimalValue(s) > MaxInt64 then Err(ErrRange) else Ok(DecimalValue(s))
  {
  }

  /** A digit string has value zero exactly when every digit is '0'. */
  lemma {:induction false} DecimalValueZero(s: string)
    requires AllDigits(s)
    ensures DecimalValue(s) == 0 <==> forall i :: 0 <= i < |s| ==> s[i] == '0'
    decreases |s|
  {
    if s != [] {
      var init := s[..|s| - 1];
      DecimalValueZero(init);
      if DecimalValue(s) == 0 {
        forall i | 0 <= i < |s| ensures s[i] == '0' {
          if i < |s| - 1 { assert s[i] == init[i]; }
        }
      }
    }
  }
}

=== FILE: wrappers.dfy ===
/** Failure-carrying results, standing in for Go's `(value, error)` pairs. */
module Wrappers {
  datatype Option<+T> = None | Some(value: T)

  datatype Result<+T, +E> = Ok(value: T) | Err(error: E)
}
